=== FILE: README.md ===
# Shopping-list quantity engine

A Dafny model of the core of a household meal planner. The planner turns the
per-person ingredient quantities of recipes into the rows of a shopping list,
scaled to the list's headcount. Its core does four things:

- It merges recipe contributions into existing recipe-derived rows with the same name and unit.
- It re-derives every recipe-derived row when the headcount changes.
- It guards every edit behind a two-state (open / closed) list lifecycle.
- It validates the form input that feeds these operations.

Every decimal is a fixed-point integer:

- absolute quantities and recipe per-person quantities are counted in hundredths (`Hundredths`);
- per-person rates of list rows are counted in ten-thousandths (`TenThousandths`).

Each `quantize` in the source runs under the default decimal context, which
rounds half to even. The model has one rounding function, `FixedPoint.RoundHalfEven`,
and uses it at both precisions. It is pinned by `IsHalfEvenRounding`: the result
is the nearest integer, and the even one on a tie. `RoundHalfEvenUnique` proves
that this property determines the result.

Modules follow the source files:

- `FixedPoint`: rounding, the effective headcount `max(people_count, 1)`, and the two quantize steps.
- `Models` (core/models.py): records, defaults, name mirroring on save, `recalculate`, `close`.
- `Aggregation` (the loop of `shopping_list_add_recipes` in core/views.py): lookup, merge, and the invariants it keeps.
- `Forms` (core/forms.py): default headcount, recipe selection, duplicate-name checks, ingredient lookup, quick-add bounds.
- `Views` (core/views.py): the guarded operations and the lifecycle as a whole.
- `Scenarios`: worked examples on concrete lists.

The central invariant is `Views.Valid`. It requires that no two derived rows
share a (name, unit) key. It also requires that every derived row's quantity
equals `round2(max(people_count, 1) × rate)`. `ApplyKeepsValid` and
`RunKeepsValid` prove that every request, and every sequence of requests,
preserves it.

What a recipe request adds is stated per (name, unit) key: `AddSelectionsRate`
proves that each key's rate ends up as its old rate (0 for a new row) plus the
sum of every ticked line's contribution to it. It follows that the order in
which recipes are added does not change any rate, nor, on a consistent list,
any quantity (`AddSelectionsOrderIndependent`), although rows new to the list are appended
in the order their keys first appear.

Each operation returns either the list to store or the reason it is refused.
A refused request stores nothing: `Views.Apply` keeps the old list.

Behaviour of the code that the model keeps as it is:

- Unit codes are those of `UNIT_CHOICES`: `g kg ml l unit cs cc pincee`. The display labels (`unité(s)`, `c. à s.`, `c. à c.`, `pincée`) are not codes, and neither are English names such as `tablespoon`, `teaspoon` or `pinch` (`UnitCodesAccepted`).
- The people-count form accepts 0, because the field is a `PositiveIntegerField`; its `min: 1` is only an HTML attribute. A stored 0 scales like 1 (`ZeroPeopleScalesLikeOne`). Only negative counts are refused.
- Manual rows are always appended and never merged, not even with other manual rows.
- Merging into a row does not refresh its name from a linked ingredient. Rows created from recipes are never linked to an ingredient.
- `close` has no guard: closing a closed list stamps `closed_at` again.

The source is inconsistent in places, and the model abstracts over those spots:

- core/views.py reads `ingredient.name` from a recipe line, but core/models.py only gives recipe lines a `display_name`.
- core/views.py imports `ManualItemForm` and `RecipeIngredientForm`, which core/forms.py does not define.

So a recipe line is modelled as `(name, unit, quantity per person)`, and manual
add takes an already-cleaned `(name, unit, quantity)`.

## Model

| member | source | states |
|---|---|---|
| FixedPoint.RoundHalfEven | core/views.py:176 | the result is the integer nearest to num/den, and the even one when num/den is exactly halfway between two integers |
| FixedPoint.RoundHalfEvenUnique | core/views.py:184-189 | any integer with the nearest/ties-to-even property is the one RoundHalfEven returns, so every quantize step has exactly one correct result |
| FixedPoint.RoundHalfEvenExact | core/views.py:184-186 | quantizing an exact multiple returns the quotient; this is why quantizing the sum of two 4-decimal rates to 4 decimals changes nothing |
| FixedPoint.RoundHalfEvenNegate | core/views.py:176 | rounding is symmetric about zero, as decimal quantize is |
| FixedPoint.EffectivePeople | core/views.py:172 | the list headcount used for scaling is at least 1; it is the stored count when that count is at least 1, and 1 otherwise (so no division by zero) |
| FixedPoint.ContributedRate | core/views.py:174-176 | a recipe line's per-person contribution is qpp × people / listPeople rounded half-even to 4 decimals |
| FixedPoint.DerivedQuantity | core/views.py:187-189 | a derived row's quantity is headcount × rate rounded half-even to 2 decimals |
| FixedPoint.DerivedQuantityTiesToEven | core/models.py:140 | 0.0050 gives 0.00, 0.0150 gives 0.02, 0.0250 gives 0.02 and -0.0050 gives 0.00: ties go to even, not away from zero |
| Models.NewList | core/models.py:83-86 | a new list is open, has never been closed, and has no rows |
| Models.NewDefaultList | core/models.py:83-86 | a list created without a people count is for 1 person, open, never closed, and has no rows |
| Models.NewItem | core/models.py:113-114 | a created row is unlinked and unchecked, stores exactly the name, unit, quantity and rate it is given, and is a manual row exactly when it has no rate |
| Models.Save | core/models.py:131-134 | saving sets `name` to the linked ingredient's name, leaves an unlinked row as it is, and changes no other field |
| Models.SaveKeepsDisplayName | core/models.py:125-134 | saving never changes the displayed name, and saving twice is the same as saving once |
| Models.Recalculate | core/models.py:136-141 | a manual row is unchanged; otherwise only the quantity changes, to max(people_count, 1) × rate rounded half-even to 2 decimals, which re-establishes the derived-value invariant |
| Models.RecalculateClampsAndSettles | core/models.py:139-141 | a stored people count of 0 recalculates like 1, and recalculating twice is the same as recalculating once |
| Models.Close | core/models.py:95-98 | the list becomes closed, `closed_at` is the given instant, and the name, people count and rows are unchanged, whatever the previous state |
| Aggregation.FirstMatch | core/views.py:177-182 | returns the first derived row with the key and the given checked flag, or none when no such row exists |
| Aggregation.FindExisting | core/views.py:177-182 | the lookup returns a derived row with the same name and unit exactly when one exists; it is never a manual row; it prefers unchecked rows and otherwise takes the first in order |
| Aggregation.FindExistingIsTheOnlyMatch | core/views.py:177-182 | when derived keys are unique, the row found is the only row with that key |
| Aggregation.MergeContribution | core/views.py:183-199 | with a match: no row is added, the matched row's rate becomes old + contribution and its quantity is rounded from headcount × new rate, and every other row is unchanged; with no match: the rows are kept and one unchecked, unlinked row is appended with rate = contribution and quantity rounded from headcount × contribution |
| Aggregation.MergePreservesInvariant | core/views.py:183-199 | merging keeps derived (name, unit) keys unique, and keeps every derived row's quantity equal to its rounded headcount × rate |
| Aggregation.MergeTwice | core/views.py:184-189 | two contributions merged into the same key one right after the other give the same rows as merging their sum once |
| Aggregation.ManualRowsAreNeverMerged | core/views.py:181 | when every row is manual, a contribution is appended as a new derived row, even if a manual row has the same name and unit |
| Aggregation.AddIngredient | core/views.py:175-199 | with c the line's contribution (qpp × people / listPeople, rounded to 4 decimals): when a derived row has the line's key, no row is added, that row's rate becomes old + c with its quantity re-derived, and every other row is unchanged; otherwise the rows are kept and one unchecked, unlinked derived row with rate c is appended |
| Aggregation.AddRecipe | core/views.py:175-199 | merging all lines of a recipe changes no manual row, keeps every existing row in place, only appends derived rows, and preserves unique keys and consistent quantities (its effect on each key's rate is AddRecipeRate) |
| Aggregation.AddSelections | core/views.py:173-199 | merging all selected recipes has the same row-keeping and invariant-preserving properties (its effect on each key's rate is AddSelectionsRate) |
| Aggregation.MergeSelectionsInPlace | core/views.py:173-199 | the nested loop over selections and recipe lines computes the same rows as the fold AddSelections |
| Aggregation.RateOf | core/views.py:177-182 | the rate under a (name, unit) key is absent exactly when no derived row has the key; when keys are unique it is the rate of the one row that has it |
| Aggregation.QuantityOf | core/views.py:177-182 | the quantity under a key is present exactly when its rate is |
| Aggregation.QuantityFollowsRate | core/views.py:187-189 | on a consistent list, the quantity under a key is headcount × that key's rate rounded half-even to 2 decimals |
| Aggregation.MergeRates | core/views.py:183-199 | one merge sets its own key's rate to the old rate (0 when the key had no row) plus the contribution, and leaves the rate of every other key unchanged |
| Aggregation.AddRecipeRate | core/views.py:175-199 | after one recipe, each key's rate is its old rate (0 if none) plus the sum of the contributions of the recipe's lines with that key; the key has no row exactly when it had none and no line has it |
| Aggregation.AddSelectionsRate | core/views.py:173-199 | after all selected recipes, each key's rate is its old rate (0 if none) plus the sum of every selected line's contribution to it; the key has no row exactly when it had none and no selected line has it |
| Aggregation.AddSelectionsOrderIndependent | core/views.py:173-199 | adding selections a then b gives every key the same rate as b then a, and on a consistent list the same quantity |
| Aggregation.TwoRecipesCommute | core/views.py:173-199 | adding recipe A then recipe B gives every key the same rate as B then A, and on a consistent list the same quantity |
| Forms.DefaultPeople | core/forms.py:108 | the default headcount is at least 1; it is the given value when that value is at least 1, and 1 when the value is absent, 0 or below 1 |
| Forms.PeopleFor | core/forms.py:136 | a selected row's headcount is the entered value when one was entered, the default when the field is empty, and at least 1 when the field passed validation |
| Forms.SelectedRecipes | core/forms.py:132-138 | returns at most one selection per row, and every returned headcount is at least 1 when the fields are valid and the default is at least 1 |
| Forms.SelectedPositions | core/forms.py:132-138 | lists the positions of all ticked rows and nothing else, in increasing order |
| Forms.SelectedRecipesAreTheTickedRows | core/forms.py:132-138 | the selection holds exactly the ticked rows' recipes, in row order, each with its PeopleFor headcount |
| Forms.Strip | core/forms.py:34 | the cleaned name is the run of the input between its leading and trailing whitespace: every removed character is whitespace, and the result neither starts nor ends with whitespace |
| Forms.StripIsIdempotent | core/forms.py:34 | stripping an already stripped name changes nothing |
| Forms.HasClash | core/forms.py:35-38 | true exactly when some stored record, other than the one being edited, has the same name up to case |
| Forms.CleanUniqueName | core/forms.py:33-40 | on success, returns the stripped name; it fails, with the given message, exactly when a record with a different primary key has the same name up to case |
| Forms.CleanCategoryName | core/forms.py:33-40 | the same rule for categories, failing with "Cette catégorie existe déjà." |
| Forms.CleanIngredientName | core/forms.py:57-64 | the same rule for ingredients, failing with "Cet ingrédient existe déjà." |
| Forms.OwnNameIsAccepted | core/forms.py:36-37 | when stored names are unique up to case, a record edited with its own name (in any case, with any padding) is accepted |
| Forms.AcceptedNameKeepsNamesUnique | core/forms.py:35-40 | adding a record whose name the validator accepted keeps stored names unique up to case |
| Forms.FindIngredient | core/forms.py:88 | returns a catalog entry with the id, and none exactly when no entry has it |
| Forms.CleanIngredientId | core/forms.py:86-91 | succeeds exactly when the id is at least 1 and present in the catalog, and then returns the catalog entry with that id; an unknown id fails with "Ingrédient introuvable." |
| Forms.CleanDecimal | core/forms.py:78-83 | accepts a decimal exactly when it is at least 0.01, has at most 2 written decimals and at most maxDigits − 2 digits before the point; the cleaned value equals the input, counted in hundredths |
| Forms.CleanDecimalRoundTrip | core/forms.py:78-83 | every whole number of hundredths from 0.01 up to the digit limit, written with two decimals, is accepted unchanged |
| Forms.CleanQuantityPerPerson | core/forms.py:78-83 | the recipe quick-add quantity is accepted from 0.01 to 999999.99, with at most 2 decimals |
| Forms.CleanManualQuantity | core/forms.py:143-148 | the manual quick-add quantity is accepted from 0.01 to 99999999.99, with at most 2 decimals |
| Forms.CleanUnit | core/forms.py:84 | a unit is accepted, unchanged, exactly when it is empty or one of the unit codes |
| Forms.UnitCodesAccepted | core/models.py:7-16 | all eight codes and the empty unit are accepted; the four display labels `unité(s)`, `c. à s.`, `c. à c.`, `pincée` and the names `tablespoon`, `teaspoon`, `pinch` are refused |
| Views.EmptySelectionMeansNothingTicked | core/views.py:168-170 | the selection is empty exactly when no row is ticked |
| Views.AddRecipes | core/views.py:153-199 | refused on a closed list, on an invalid headcount field, or when nothing is ticked; otherwise it changes only the rows, keeps every existing row in place, preserves the list invariant, and gives every (name, unit) key the rate it had (0 if it had no row) plus the contributions of all ticked recipes' lines with that key, with no row exactly when it had none and no ticked line has the key |
| Views.DefaultPeopleIsEffectivePeople | core/views.py:161-172 | the headcount pre-filled in the recipe form equals the list headcount used for scaling |
| Views.RecalculateAll | core/views.py:223-224 | leaves manual rows unchanged, changes only quantities, and makes every derived row consistent with the new count |
| Views.UpdatePeople | core/views.py:213-224 | refused on a closed list or a negative count; otherwise it stores the count, keeps every rate and manual row, and sets each derived quantity to max(count, 1) × rate rounded half-even |
| Views.UpdatePeopleIsIdempotent | core/views.py:221-224 | setting the same count twice stores the same list as setting it once |
| Views.AddManualItem | core/views.py:128-139 | refused on a closed list; otherwise it appends exactly one unchecked, unlinked manual row with the given name, unit and quantity, and changes nothing else |
| Views.ToggleItem | core/views.py:238-250 | a missing row is NotFound, checked before the closed guard; otherwise it flips only the targeted row's checked flag |
| Views.ToggleTwiceRestores | core/views.py:247-248 | toggling the same row twice restores the list |
| Views.RemoveItem | core/views.py:253-263 | a missing row is NotFound, checked before the closed guard; otherwise it deletes only the targeted row and keeps the others in order |
| Views.CloseList | core/views.py:266-273 | closing always succeeds, marks the list closed with the given instant, and changes no other field (name, people count, rows) |
| Views.ClosedListIsFrozen | core/views.py:129-131 | on a closed list every request except close is refused, and the people count and rows stay as they are |
| Views.ClosedStaysClosed | core/models.py:95-98 | no sequence of requests reopens a closed list or changes its people count or rows |
| Views.RemoveKeepsValid | core/views.py:261 | deleting a row preserves the list invariant |
| Views.AddManualKeepsValid | core/views.py:133-139 | appending a manual row preserves the list invariant |
| Views.ApplyKeepsValid | core/views.py:153-263 | every request preserves the list invariant |
| Views.RunKeepsValid | core/views.py:153-263 | every sequence of requests preserves the list invariant |
| Views.NewListIsValid | core/models.py:83 | a new list satisfies the invariant |
| Scenarios.ScaleUp | core/views.py:172-199 | 200.00 g per person, selected for 4 people on a 4-person list, gives one row with rate 200.0000 and quantity 800.00 |
| Scenarios.MergeIntoExisting | core/views.py:183-190 | merged into a row at 50.0000 per person, that contribution gives 250.0000 and 1000.00, and no row is added |
| Scenarios.HeadcountChange | core/views.py:221-224 | moving that list to 6 people gives 1500.00, and a manual 5.00 kg row stays at 5.00 |
| Scenarios.ZeroPeopleScalesLikeOne | core/models.py:139-141 | a people count of 0 is stored and scales like 1 |
| Scenarios.UnevenRatios | core/views.py:174-176 | 0.01 per person for 3 on a 2-person list gives 0.0150 and 0.03 in all; for 1 on an 8-person list it gives the tie 0.00125, rounded to 0.0012 |
| Scenarios.ExactRatioTie | core/views.py:174-176 | 0.07 per person for 57 people on a 56-person list is the exact tie 0.07125, rounded to 0.0712 (the source's 28-digit ratio gives 0.0713; see Left out) |
| Scenarios.ManualRowIsKeptApart | core/views.py:177-182 | a manual row with the recipe's name and unit is kept, and the contribution becomes a separate row |
| Scenarios.NothingTicked | core/views.py:168-170 | submitting with no recipe ticked is refused with "Sélectionnez au moins une recette." |

## Left out

- HTTP handling is left out: request methods, redirects, flash messages, rendering and `get_object_or_404` on the list. A missing row is the `NotFound` error. GET requests to the toggle and remove views change nothing and are not modelled.
- Persistence is left out: the database, cascade / SET_NULL / PROTECT policies, and primary keys of rows. Rows are an in-memory sequence addressed by position.
- The clock is left out: `timezone.now()` becomes a `Timestamp` parameter of `Close`.
- Registration, login, the dashboard, the archive and active-list queries, core/urls.py, core/admin.py and mealplanner/debug_middleware.py are not part of this model. None of them contains quantity or lifecycle logic.
- Concurrency is left out. The views use no transaction or lock, and the model is sequential.
- ContributedRate: the ratio `Decimal(people) / Decimal(list_people)` is taken as an exact rational. The source first rounds it to 28 significant digits under the default context, then rounds the product again. Both steps are abstracted away, and only the explicit quantize steps round. The difference can move the last digit on a tie: 0.07 per person for 57 people on a 56-person list is exactly 0.07125, which the model rounds to 0.0712 (`Scenarios.ExactRatioTie`), while the source's rounded ratio 1.017857142857142857142857143 makes the product slightly above the tie, giving 0.0713.
- CleanDecimal: Django checks all of a field's validators; the model reports only the first failure, in the order minimum, total digits, decimal places, whole digits. Inputs in exponent notation with a positive exponent, NaN and infinities are not modelled.
- UpdatePeople: the database's upper bound on a `PositiveIntegerField` is not modelled; any non-negative integer is accepted.
- Forms.FoldCase: case-insensitive matching folds ASCII letters only, as SQLite's `LIKE` does. Databases that fold all of Unicode would also match accented capitals.
- FindExisting: among derived rows with the same key and the same checked flag, the model takes the first in insertion order. The database leaves that order unspecified. When keys are unique, which `Valid` guarantees, there is at most one match.
- Field-size limits of the stored decimals (`max_digits` 10 for quantities and rates) are not enforced on computed values; the model's integers are unbounded.
- The display grouping by category is not modelled: no code for it is shown.
- No view in core/views.py instantiates `IngredientCategoryForm`, `IngredientForm`, `RecipeIngredientQuickAddForm` or `ManualItemQuickAddForm` (the views import `RecipeIngredientForm` and `ManualItemForm`, which core/forms.py does not define), so nothing shown calls their validators. The model covers those validators as standalone functions: `clean_name`, `clean_ingredient_id`, the decimal fields and the unit field.

=== FILE: aggregation.dfy ===
/** Merging recipe contributions into the rows of a shopping list
    (the loop body of `shopping_list_add_recipes`, core/views.py). */
module Aggregation {
  import opened Wrappers
  import opened FixedPoint
  import opened Models

  /** A row that a contribution for (name, unit) merges into: a derived row
      with that name and unit. Manual rows never match. */
  predicate IsDerivedMatch(item: Item, name: string, unit: string) {
    item.perPerson.Some? && item.name == name && item.unit == unit
  }

  predicate IsMatchWithState(item: Item, name: string, unit: string, checked: bool) {
    IsDerivedMatch(item, name, unit) && item.checked == checked
  }

  /** The first matching row whose `checked` flag is `checked`. */
  function FirstMatch(items: seq<Item>, name: string, unit: string, checked: bool): (r: Option<nat>)
    ensures r.Some? ==> r.value < |items| && IsMatchWithState(items[r.value], name, unit, checked)
    ensures r.Some? ==> forall k :: 0 <= k < r.value ==> !IsMatchWithState(items[k], name, unit, checked)
    ensures r.None? ==> forall k :: 0 <= k < |items| ==> !IsMatchWithState(items[k], name, unit, checked)
  {
    if |items| == 0 then None
    else if IsMatchWithState(items[0], name, unit, checked) then Some(0)
    else match FirstMatch(items[1..], name, unit, checked)
      case None => None
      case Some(i) => Some(i + 1)
  }

  /** The row the source's lookup returns: the first matching derived row in
      the list's ordering, which puts unchecked rows before checked ones and
      otherwise keeps insertion order. */
  function FindExisting(items: seq<Item>, name: string, unit: string): (r: Option<nat>)
    ensures r.Some? ==> r.value < |items| && IsDerivedMatch(items[r.value], name, unit)
    ensures r.None? <==> forall k :: 0 <= k < |items| ==> !IsDerivedMatch(items[k], name, unit)
    ensures r.Some? ==> forall k :: 0 <= k < r.value && IsDerivedMatch(items[k], name, unit) ==>
      items[k].checked && !items[r.value].checked
    ensures r.Some? && items[r.value].checked ==>
      forall k :: 0 <= k < |items| && IsDerivedMatch(items[k], name, unit) ==> items[k].checked
  {
    match FirstMatch(items, name, unit, false)
    case Some(i) => Some(i)
    case None =>
      var r := FirstMatch(items, name, unit, true);
      assert forall k :: 0 <= k < |items| && IsDerivedMatch(items[k], name, unit) ==>
        IsMatchWithState(items[k], name, unit, items[k].checked);
      r
  }

  /** No two derived rows share a (name, unit) key. */
  ghost predicate DerivedKeysUnique(items: seq<Item>) {
    forall i, j :: 0 <= i < j < |items| && items[i].perPerson.Some? && items[j].perPerson.Some? ==>
      items[i].name != items[j].name || items[i].unit != items[j].unit
  }

  /** Every derived row satisfies the derived-value invariant at `listPeople`. */
  ghost predicate QuantitiesConsistent(items: seq<Item>, listPeople: int) {
    forall i :: 0 <= i < |items| ==> QuantityIsDerived(items[i], listPeople)
  }

  /** When keys are unique, the lookup finds the one row with that key. */
  lemma FindExistingIsTheOnlyMatch(items: seq<Item>, name: string, unit: string)
    requires DerivedKeysUnique(items)
    requires FindExisting(items, name, unit).Some?
    ensures forall k :: 0 <= k < |items| && IsDerivedMatch(items[k], name, unit) ==>
      k == FindExisting(items, name, unit).value
  {
  }

  /** `after` keeps every row of `before` in place: manual rows unchanged,
      derived rows with the same identity (link, name, unit, checked flag),
      possibly a new rate and quantity; rows past the old end are new,
      unlinked, unchecked derived rows. */
  ghost predicate KeepsRows(before: seq<Item>, after: seq<Item>) {
    && |before| <= |after|
    && (forall j :: 0 <= j < |before| && before[j].IsManual() ==> after[j] == before[j])
    && (forall j :: 0 <= j < |before| && before[j].perPerson.Some? ==>
          after[j].perPerson.Some? && after[j].(perPerson := before[j].perPerson, quantity := before[j].quantity) == before[j])
    && (forall j :: |before| <= j < |after| ==>
          after[j].perPerson.Some? && after[j].ingredient.None? && !after[j].checked)
  }

  lemma KeepsRowsTransitive(a: seq<Item>, b: seq<Item>, c: seq<Item>)
    requires KeepsRows(a, b) && KeepsRows(b, c)
    ensures KeepsRows(a, c)
  {
  }

  /** Merges one per-person contribution for (name, unit) into the rows: the
      matching derived row, if any, gets the summed rate and the quantity derived
      from it; otherwise a new derived row is appended. The stored rate and the
      contribution both have 4 decimal places, so quantizing their sum to 4
      places is exact. */
  function MergeContribution(items: seq<Item>, listPeople: int, name: string, unit: string,
                             contrib: TenThousandths): (r: seq<Item>)
    ensures FindExisting(items, name, unit).Some? ==>
      var i := FindExisting(items, name, unit).value;
      && |r| == |items|
      && r[i].perPerson == Some(items[i].perPerson.value + contrib)
      && IsHalfEvenRounding(listPeople * r[i].perPerson.value, 100, r[i].quantity)
      && r[i].(perPerson := items[i].perPerson, quantity := items[i].quantity) == items[i]
      && forall j :: 0 <= j < |items| && j != i ==> r[j] == items[j]
    ensures FindExisting(items, name, unit).None? ==>
      && |r| == |items| + 1
      && r[..|items|] == items
      && r[|items|].name == name && r[|items|].unit == unit
      && r[|items|].perPerson == Some(contrib)
      && IsHalfEvenRounding(listPeople * contrib, 100, r[|items|].quantity)
      && r[|items|].ingredient.None? && !r[|items|].checked
    ensures KeepsRows(items, r)
  {
    match FindExisting(items, name, unit)
    case Some(i) =>
      var rate := items[i].perPerson.value + contrib;
      items[i := items[i].(perPerson := Some(rate), quantity := DerivedQuantity(listPeople, rate))]
    case None =>
      items + [NewItem(name, unit, DerivedQuantity(listPeople, contrib), Some(contrib))]
  }

  /** Merging keeps derived keys unique and every derived row consistent. */
  lemma MergePreservesInvariant(items: seq<Item>, listPeople: int, name: string, unit: string,
                                contrib: TenThousandths)
    ensures DerivedKeysUnique(items) ==>
      DerivedKeysUnique(MergeContribution(items, listPeople, name, unit, contrib))
    ensures QuantitiesConsistent(items, listPeople) ==>
      QuantitiesConsistent(MergeContribution(items, listPeople, name, unit, contrib), listPeople)
  {
    if DerivedKeysUnique(items) {
      MergeKeepsKeysUnique(items, listPeople, name, unit, contrib);
    }
    if QuantitiesConsistent(items, listPeople) {
      MergeKeepsQuantitiesConsistent(items, listPeople, name, unit, contrib);
    }
  }

  lemma MergeKeepsKeysUnique(items: seq<Item>, listPeople: int, name: string, unit: string,
                             contrib: TenThousandths)
    requires DerivedKeysUnique(items)
    ensures DerivedKeysUnique(MergeContribution(items, listPeople, name, unit, contrib))
  {
    var r := MergeContribution(items, listPeople, name, unit, contrib);
    if FindExisting(items, name, unit).Some? {
      assert forall j :: 0 <= j < |r| ==>
        (r[j].name == items[j].name && r[j].unit == items[j].unit
        && (r[j].perPerson.Some? <==> items[j].perPerson.Some?));
    } else {
      forall i, j | 0 <= i < j < |r| && r[i].perPerson.Some? && r[j].perPerson.Some?
        ensures r[i].name != r[j].name || r[i].unit != r[j].unit
      {
        if j == |items| {
          assert r[i] == items[i];
          assert !IsDerivedMatch(items[i], name, unit);
        } else {
          assert r[i] == items[i] && r[j] == items[j];
        }
      }
    }
  }

  lemma MergeKeepsQuantitiesConsistent(items: seq<Item>, listPeople: int, name: string, unit: string,
                                       contrib: TenThousandths)
    requires QuantitiesConsistent(items, listPeople)
    ensures QuantitiesConsistent(MergeContribution(items, listPeople, name, unit, contrib), listPeople)
  {
    var r := MergeContribution(items, listPeople, name, unit, contrib);
    forall k | 0 <= k < |r|
      ensures QuantityIsDerived(r[k], listPeople)
    {
      if k < |items| && r[k] == items[k] {
        assert QuantityIsDerived(items[k], listPeople);
      } else {
        RoundHalfEvenUnique(listPeople * r[k].perPerson.value, 100, r[k].quantity);
      }
    }
  }

  /** Two contributions for the same key in a row sum exactly: merging c1 then
      c2 is merging c1 + c2 once. So the order of contributions for one key
      does not matter. */
  lemma MergeTwice(items: seq<Item>, listPeople: int, name: string, unit: string,
                   c1: TenThousandths, c2: TenThousandths)
    ensures MergeContribution(MergeContribution(items, listPeople, name, unit, c1), listPeople, name, unit, c2)
         == MergeContribution(items, listPeople, name, unit, c1 + c2)
  {
    var once := MergeContribution(items, listPeople, name, unit, c1);
    match FindExisting(items, name, unit)
    case Some(i) =>
      // The row found stays the first match of its checked state.
      assert forall k :: 0 <= k < |once| ==>
        (IsDerivedMatch(once[k], name, unit) <==> IsDerivedMatch(items[k], name, unit))
        && once[k].checked == items[k].checked;
      FindExistingAgree(items, once, name, unit);
      var rate := items[i].perPerson.value + c1 + c2;
      var merged := items[i].(perPerson := Some(rate), quantity := DerivedQuantity(listPeople, rate));
      assert MergeContribution(once, listPeople, name, unit, c2) == items[i := merged];
      assert MergeContribution(items, listPeople, name, unit, c1 + c2) == items[i := merged];
    case None =>
      var n := |items|;
      assert forall k :: 0 <= k < n ==> once[k] == items[k];
      assert FindExisting(once, name, unit).Some?;
      assert FindExisting(once, name, unit).value == n;
      var added := NewItem(name, unit, DerivedQuantity(listPeople, c1 + c2), Some(c1 + c2));
      assert MergeContribution(once, listPeople, name, unit, c2) == items + [added];
      assert MergeContribution(items, listPeople, name, unit, c1 + c2) == items + [added];
  }

  /** The lookup only depends on which rows match and on their checked flags. */
  lemma FindExistingAgree(a: seq<Item>, b: seq<Item>, name: string, unit: string)
    requires |a| == |b|
    requires forall k :: 0 <= k < |a| ==>
      (IsDerivedMatch(a[k], name, unit) <==> IsDerivedMatch(b[k], name, unit)) && a[k].checked == b[k].checked
    ensures FindExisting(a, name, unit) == FindExisting(b, name, unit)
  {
    FirstMatchAgree(a, b, name, unit, false);
    FirstMatchAgree(a, b, name, unit, true);
  }

  lemma FirstMatchAgree(a: seq<Item>, b: seq<Item>, name: string, unit: string, checked: bool)
    requires |a| == |b|
    requires forall k :: 0 <= k < |a| ==>
      (IsMatchWithState(a[k], name, unit, checked) <==> IsMatchWithState(b[k], name, unit, checked))
    ensures FirstMatch(a, name, unit, checked) == FirstMatch(b, name, unit, checked)
  {
    var ra := FirstMatch(a, name, unit, checked);
    var rb := FirstMatch(b, name, unit, checked);
    if ra.Some? && rb.Some? {
      assert !(ra.value < rb.value) && !(rb.value < ra.value);
    }
  }

  /** Merges one recipe line, cooked for `people`, into a list whose effective
      headcount is `listPeople`. */
  function AddIngredient(items: seq<Item>, listPeople: int, people: int, line: RecipeIngredient): (r: seq<Item>)
    requires listPeople >= 1
    ensures var contrib := ContributedRate(line.perPerson, people, listPeople);
      FindExisting(items, line.name, line.unit).Some? ==>
      var i := FindExisting(items, line.name, line.unit).value;
      && |r| == |items|
      && r[i].perPerson == Some(items[i].perPerson.value + contrib)
      && IsHalfEvenRounding(listPeople * r[i].perPerson.value, 100, r[i].quantity)
      && r[i].(perPerson := items[i].perPerson, quantity := items[i].quantity) == items[i]
      && forall j :: 0 <= j < |items| && j != i ==> r[j] == items[j]
    ensures var contrib := ContributedRate(line.perPerson, people, listPeople);
      FindExisting(items, line.name, line.unit).None? ==>
      && |r| == |items| + 1
      && r[..|items|] == items
      && r[|items|].name == line.name && r[|items|].unit == line.unit
      && r[|items|].perPerson == Some(contrib)
      && IsHalfEvenRounding(listPeople * contrib, 100, r[|items|].quantity)
      && r[|items|].ingredient.None? && !r[|items|].checked
    ensures KeepsRows(items, r)
  {
    MergeContribution(items, listPeople, line.name, line.unit, ContributedRate(line.perPerson, people, listPeople))
  }

  /** Merges every line of one recipe, in order. */
  function AddRecipe(items: seq<Item>, listPeople: int, people: int, lines: seq<RecipeIngredient>): (r: seq<Item>)
    requires listPeople >= 1
    ensures KeepsRows(items, r)
    ensures DerivedKeysUnique(items) && QuantitiesConsistent(items, listPeople) ==>
      DerivedKeysUnique(r) && QuantitiesConsistent(r, listPeople)
    decreases |lines|
  {
    if |lines| == 0 then items
    else
      var next := AddIngredient(items, listPeople, people, lines[0]);
      MergePreservesInvariant(items, listPeople, lines[0].name, lines[0].unit,
                              ContributedRate(lines[0].perPerson, people, listPeople));
      var r := AddRecipe(next, listPeople, people, lines[1..]);
      KeepsRowsTransitive(items, next, r);
      r
  }

  /** Merges every selected recipe, in selection order. */
  function AddSelections(items: seq<Item>, listPeople: int, selections: seq<Selection>): (r: seq<Item>)
    requires listPeople >= 1
    ensures KeepsRows(items, r)
    ensures DerivedKeysUnique(items) && QuantitiesConsistent(items, listPeople) ==>
      DerivedKeysUnique(r) && QuantitiesConsistent(r, listPeople)
    decreases |selections|
  {
    if |selections| == 0 then items
    else
      var next := AddRecipe(items, listPeople, selections[0].people, selections[0].recipe.ingredients);
      var r := AddSelections(next, listPeople, selections[1..]);
      KeepsRowsTransitive(items, next, r);
      r
  }

  // ---------------------------------------------------------------------------
  // Rates per key: what a whole request adds up to
  // ---------------------------------------------------------------------------

  /** The rate stored under a (name, unit) key: that of the derived row the
      lookup finds, or None when no derived row has the key. With unique keys
      it is the rate of the one row with the key. */
  function RateOf(items: seq<Item>, name: string, unit: string): (r: Option<int>)
    ensures r.None? <==> forall k :: 0 <= k < |items| ==> !IsDerivedMatch(items[k], name, unit)
    ensures DerivedKeysUnique(items) ==>
      forall k :: 0 <= k < |items| && IsDerivedMatch(items[k], name, unit) ==> r == items[k].perPerson
  {
    match FindExisting(items, name, unit)
    case None => None
    case Some(i) => items[i].perPerson
  }

  /** The quantity stored under a (name, unit) key, from the same row as `RateOf`. */
  function QuantityOf(items: seq<Item>, name: string, unit: string): (r: Option<int>)
    ensures r.None? <==> RateOf(items, name, unit).None?
  {
    match FindExisting(items, name, unit)
    case None => None
    case Some(i) => Some(items[i].quantity)
  }

  /** On a consistent list the quantity under a key is the one derived from its rate. */
  lemma QuantityFollowsRate(items: seq<Item>, listPeople: int, name: string, unit: string)
    requires QuantitiesConsistent(items, listPeople)
    ensures RateOf(items, name, unit).Some? ==>
      QuantityOf(items, name, unit) == Some(DerivedQuantity(listPeople, RateOf(items, name, unit).value))
  {
    match FindExisting(items, name, unit)
    case None =>
    case Some(i) => assert QuantityIsDerived(items[i], listPeople);
  }

  predicate HasKey(line: RecipeIngredient, name: string, unit: string) {
    line.name == name && line.unit == unit
  }

  /** Some line of the recipe has the key. */
  predicate LinesMention(lines: seq<RecipeIngredient>, name: string, unit: string) {
    exists i :: 0 <= i < |lines| && HasKey(lines[i], name, unit)
  }

  /** Some selected recipe has a line with the key. */
  predicate SelectionsMention(selections: seq<Selection>, name: string, unit: string) {
    exists s :: 0 <= s < |selections| && LinesMention(selections[s].recipe.ingredients, name, unit)
  }

  /** The sum of the rates the recipe's lines with the key contribute. */
  function LinesContribution(lines: seq<RecipeIngredient>, people: int, listPeople: int,
                             name: string, unit: string): int
    requires listPeople >= 1
    decreases |lines|
  {
    if |lines| == 0 then 0
    else
      (if HasKey(lines[0], name, unit) then ContributedRate(lines[0].perPerson, people, listPeople) else 0)
      + LinesContribution(lines[1..], people, listPeople, name, unit)
  }

  /** The sum of the rates every selected recipe contributes to the key. */
  function SelectionsContribution(selections: seq<Selection>, listPeople: int, name: string, unit: string): int
    requires listPeople >= 1
    decreases |selections|
  {
    if |selections| == 0 then 0
    else
      LinesContribution(selections[0].recipe.ingredients, selections[0].people, listPeople, name, unit)
      + SelectionsContribution(selections[1..], listPeople, name, unit)
  }

  /** A key's rate after contributions summing to `sum`: the old rate (0 for a
      key without a row) plus the sum, and still no row when there was none and
      nothing contributed to the key. */
  function RateAfter(before: Option<int>, mentioned: bool, sum: int): Option<int> {
    if before.None? && !mentioned then None
    else Some((if before.Some? then before.value else 0) + sum)
  }

  /** The rate a key should have once every selected recipe is merged. */
  function RateAfterSelections(items: seq<Item>, listPeople: int, selections: seq<Selection>,
                               name: string, unit: string): Option<int>
    requires listPeople >= 1
  {
    RateAfter(RateOf(items, name, unit), SelectionsMention(selections, name, unit),
              SelectionsContribution(selections, listPeople, name, unit))
  }

  /** Appending a row that does not match a key leaves the lookup of that key alone. */
  lemma FirstMatchAppend(items: seq<Item>, extra: Item, name: string, unit: string, checked: bool)
    requires !IsMatchWithState(extra, name, unit, checked)
    ensures FirstMatch(items + [extra], name, unit, checked) == FirstMatch(items, name, unit, checked)
  {
    var longer := items + [extra];
    assert forall k :: 0 <= k < |items| ==> longer[k] == items[k];
    var ra := FirstMatch(longer, name, unit, checked);
    var rb := FirstMatch(items, name, unit, checked);
    if ra.Some? && rb.Some? {
      assert !(ra.value < rb.value) && !(rb.value < ra.value);
    }
  }

  lemma FindExistingAppend(items: seq<Item>, extra: Item, name: string, unit: string)
    requires !IsDerivedMatch(extra, name, unit)
    ensures FindExisting(items + [extra], name, unit) == FindExisting(items, name, unit)
  {
    FirstMatchAppend(items, extra, name, unit, false);
    FirstMatchAppend(items, extra, name, unit, true);
  }

  /** One merge adds the contribution to its own key's rate (creating the key
      at the contribution when it had no row) and leaves every other key's rate alone. */
  lemma MergeRates(items: seq<Item>, listPeople: int, name: string, unit: string,
                   contrib: TenThousandths, n: string, u: string)
    ensures RateOf(MergeContribution(items, listPeople, name, unit, contrib), n, u)
         == if n == name && u == unit then RateAfter(RateOf(items, n, u), true, contrib)
            else RateOf(items, n, u)
  {
    var r := MergeContribution(items, listPeople, name, unit, contrib);
    match FindExisting(items, name, unit)
    case Some(i) =>
      assert forall k :: 0 <= k < |r| ==>
        r[k].name == items[k].name && r[k].unit == items[k].unit
        && r[k].checked == items[k].checked && (r[k].perPerson.Some? <==> items[k].perPerson.Some?);
      FindExistingAgree(items, r, n, u);
    case None =>
      var added := NewItem(name, unit, DerivedQuantity(listPeople, contrib), Some(contrib));
      assert r == items + [added];
      if n == name && u == unit {
        assert forall k :: 0 <= k < |items| ==> r[k] == items[k];
        assert FindExisting(r, n, u).Some?;
        assert FindExisting(r, n, u).value == |items|;
      } else {
        FindExistingAppend(items, added, n, u);
      }
  }

  lemma LinesMentionUnfold(lines: seq<RecipeIngredient>, name: string, unit: string)
    requires |lines| > 0
    ensures LinesMention(lines, name, unit) <==> HasKey(lines[0], name, unit) || LinesMention(lines[1..], name, unit)
  {
    if LinesMention(lines[1..], name, unit) {
      var i :| 0 <= i < |lines[1..]| && HasKey(lines[1..][i], name, unit);
      assert HasKey(lines[i + 1], name, unit);
    }
    if LinesMention(lines, name, unit) && !HasKey(lines[0], name, unit) {
      var i :| 0 <= i < |lines| && HasKey(lines[i], name, unit);
      assert HasKey(lines[1..][i - 1], name, unit);
    }
  }

  lemma SelectionsMentionUnfold(selections: seq<Selection>, name: string, unit: string)
    requires |selections| > 0
    ensures SelectionsMention(selections, name, unit) <==>
      LinesMention(selections[0].recipe.ingredients, name, unit) || SelectionsMention(selections[1..], name, unit)
  {
    if SelectionsMention(selections[1..], name, unit) {
      var s :| 0 <= s < |selections[1..]| && LinesMention(selections[1..][s].recipe.ingredients, name, unit);
      assert LinesMention(selections[s + 1].recipe.ingredients, name, unit);
    }
    if SelectionsMention(selections, name, unit) && !LinesMention(selections[0].recipe.ingredients, name, unit) {
      var s :| 0 <= s < |selections| && LinesMention(selections[s].recipe.ingredients, name, unit);
      assert LinesMention(selections[1..][s - 1].recipe.ingredients, name, unit);
    }
  }

  /** Adding `c` (when `key`) and then `sum` is adding both at once. */
  lemma RateAfterStep(before: Option<int>, mid: Option<int>, key: bool, c: int, mentioned: bool, sum: int)
    requires mid == if key then RateAfter(before, true, c) else before
    ensures RateAfter(mid, mentioned, sum) == RateAfter(before, key || mentioned, (if key then c else 0) + sum)
  {
  }

  /** Adding nothing to a key nothing mentions leaves its rate as it was. */
  lemma RateAfterNothing(before: Option<int>)
    ensures RateAfter(before, false, 0) == before
  {
  }

  /** Adding `c` and then `sum` is adding `c + sum` at once. */
  lemma RateAfterCompose(before: Option<int>, key: bool, c: int, mentioned: bool, sum: int,
                          allMentioned: bool, total: int)
    requires !key ==> c == 0
    requires allMentioned == (key || mentioned) && total == c + sum
    ensures RateAfter(RateAfter(before, key, c), mentioned, sum) == RateAfter(before, allMentioned, total)
  {
  }

  /** Merging one recipe adds, to each key's rate, the contributions of the
      recipe's lines with that key. */
  lemma {:induction false} AddRecipeRate(items: seq<Item>, listPeople: int, people: int,
                                         lines: seq<RecipeIngredient>, n: string, u: string)
    requires listPeople >= 1
    ensures RateOf(AddRecipe(items, listPeople, people, lines), n, u)
         == RateAfter(RateOf(items, n, u), LinesMention(lines, n, u),
                      LinesContribution(lines, people, listPeople, n, u))
    decreases |lines|
  {
    if |lines| > 0 {
      var c := ContributedRate(lines[0].perPerson, people, listPeople);
      var key := HasKey(lines[0], n, u);
      var next := AddIngredient(items, listPeople, people, lines[0]);
      var mentioned := LinesMention(lines[1..], n, u);
      var rest := LinesContribution(lines[1..], people, listPeople, n, u);
      assert RateOf(next, n, u) == if key then RateAfter(RateOf(items, n, u), true, c) else RateOf(items, n, u) by {
        MergeRates(items, listPeople, lines[0].name, lines[0].unit, c, n, u);
      }
      assert RateOf(AddRecipe(next, listPeople, people, lines[1..]), n, u) == RateAfter(RateOf(next, n, u), mentioned, rest) by {
        AddRecipeRate(next, listPeople, people, lines[1..], n, u);
      }
      assert LinesMention(lines, n, u) == (key || mentioned) by {
        LinesMentionUnfold(lines, n, u);
      }
      assert LinesContribution(lines, people, listPeople, n, u) == (if key then c else 0) + rest;
      assert AddRecipe(items, listPeople, people, lines) == AddRecipe(next, listPeople, people, lines[1..]);
      RateAfterStep(RateOf(items, n, u), RateOf(next, n, u), key, c, mentioned, rest);
    }
  }

  /** Lines without the key contribute nothing to it. */
  lemma {:induction false} UnmentionedKeyGetsNothing(lines: seq<RecipeIngredient>, people: int, listPeople: int,
                                                     n: string, u: string)
    requires listPeople >= 1
    ensures !LinesMention(lines, n, u) ==> LinesContribution(lines, people, listPeople, n, u) == 0
    decreases |lines|
  {
    if |lines| > 0 {
      LinesMentionUnfold(lines, n, u);
      UnmentionedKeyGetsNothing(lines[1..], people, listPeople, n, u);
    }
  }

  /** Merging every selected recipe adds, to each key's rate, every contribution
      to that key; a key no row had and no line names still has no row. */
  lemma {:induction false} AddSelectionsRate(items: seq<Item>, listPeople: int, selections: seq<Selection>,
                                             n: string, u: string)
    requires listPeople >= 1
    ensures RateOf(AddSelections(items, listPeople, selections), n, u)
         == RateAfterSelections(items, listPeople, selections, n, u)
    decreases |selections|
  {
    assert RateAfterSelections(items, listPeople, selections, n, u)
        == RateAfter(RateOf(items, n, u), SelectionsMention(selections, n, u),
                     SelectionsContribution(selections, listPeople, n, u));
    if |selections| > 0 {
      var s := selections[0];
      var next := AddRecipe(items, listPeople, s.people, s.recipe.ingredients);
      var key := LinesMention(s.recipe.ingredients, n, u);
      var c := LinesContribution(s.recipe.ingredients, s.people, listPeople, n, u);
      var mentioned := SelectionsMention(selections[1..], n, u);
      var rest := SelectionsContribution(selections[1..], listPeople, n, u);
      assert RateOf(next, n, u) == RateAfter(RateOf(items, n, u), key, c) by {
        AddRecipeRate(items, listPeople, s.people, s.recipe.ingredients, n, u);
      }
      assert RateOf(AddSelections(next, listPeople, selections[1..]), n, u) == RateAfter(RateOf(next, n, u), mentioned, rest) by {
        AddSelectionsRate(next, listPeople, selections[1..], n, u);
      }
      assert SelectionsMention(selections, n, u) == (key || mentioned) by {
        SelectionsMentionUnfold(selections, n, u);
      }
      assert !key ==> c == 0 by {
        UnmentionedKeyGetsNothing(s.recipe.ingredients, s.people, listPeople, n, u);
      }
      assert SelectionsContribution(selections, listPeople, n, u) == c + rest;
      assert AddSelections(items, listPeople, selections) == AddSelections(next, listPeople, selections[1..]);
      RateAfterCompose(RateOf(items, n, u), key, c, mentioned, rest,
                       SelectionsMention(selections, n, u), SelectionsContribution(selections, listPeople, n, u));
    } else {
      assert !SelectionsMention(selections, n, u);
      assert SelectionsContribution(selections, listPeople, n, u) == 0;
      assert AddSelections(items, listPeople, selections) == items;
      RateAfterNothing(RateOf(items, n, u));
    }
  }

  /** `AddSelectionsRate` for every key at once. */
  lemma AddSelectionsRates(items: seq<Item>, listPeople: int, selections: seq<Selection>)
    requires listPeople >= 1
    ensures forall n, u :: RateOf(AddSelections(items, listPeople, selections), n, u)
                        == RateAfterSelections(items, listPeople, selections, n, u)
  {
    forall n, u
      ensures RateOf(AddSelections(items, listPeople, selections), n, u)
           == RateAfterSelections(items, listPeople, selections, n, u)
    {
      AddSelectionsRate(items, listPeople, selections, n, u);
    }
  }

  /** Contributions and mentions of a concatenation split over its halves. */
  lemma {:induction false} SelectionsConcat(a: seq<Selection>, b: seq<Selection>, listPeople: int,
                                            n: string, u: string)
    requires listPeople >= 1
    ensures SelectionsContribution(a + b, listPeople, n, u)
         == SelectionsContribution(a, listPeople, n, u) + SelectionsContribution(b, listPeople, n, u)
    ensures SelectionsMention(a + b, n, u) <==> SelectionsMention(a, n, u) || SelectionsMention(b, n, u)
    decreases |a|
  {
    if |a| == 0 {
      assert a + b == b;
    } else {
      assert (a + b)[1..] == a[1..] + b;
      SelectionsConcat(a[1..], b, listPeople, n, u);
      SelectionsMentionUnfold(a + b, n, u);
      SelectionsMentionUnfold(a, n, u);
    }
  }

  /** Two selections that mention a key alike and contribute the same to it
      give it the same rate. */
  lemma RateAfterSelectionsAgree(items: seq<Item>, listPeople: int, x: seq<Selection>, y: seq<Selection>,
                                 n: string, u: string)
    requires listPeople >= 1
    requires SelectionsMention(x, n, u) == SelectionsMention(y, n, u)
    requires SelectionsContribution(x, listPeople, n, u) == SelectionsContribution(y, listPeople, n, u)
    ensures RateAfterSelections(items, listPeople, x, n, u) == RateAfterSelections(items, listPeople, y, n, u)
  {
  }

  /** The order recipes are added in does not matter: adding the selections `a`
      then `b` gives every key the same rate as `b` then `a`, and on a valid
      list the same quantity. (Rows new to the list may be appended in a
      different order.) */
  lemma AddSelectionsOrderIndependent(items: seq<Item>, listPeople: int, a: seq<Selection>, b: seq<Selection>,
                                      n: string, u: string)
    requires listPeople >= 1
    ensures RateOf(AddSelections(items, listPeople, a + b), n, u)
         == RateOf(AddSelections(items, listPeople, b + a), n, u)
    ensures DerivedKeysUnique(items) && QuantitiesConsistent(items, listPeople) ==>
      QuantityOf(AddSelections(items, listPeople, a + b), n, u)
      == QuantityOf(AddSelections(items, listPeople, b + a), n, u)
  {
    var ab := AddSelections(items, listPeople, a + b);
    var ba := AddSelections(items, listPeople, b + a);
    assert RateOf(ab, n, u) == RateAfterSelections(items, listPeople, a + b, n, u) by {
      AddSelectionsRate(items, listPeople, a + b, n, u);
    }
    assert RateOf(ba, n, u) == RateAfterSelections(items, listPeople, b + a, n, u) by {
      AddSelectionsRate(items, listPeople, b + a, n, u);
    }
    assert RateAfterSelections(items, listPeople, a + b, n, u) == RateAfterSelections(items, listPeople, b + a, n, u) by {
      SelectionsConcat(a, b, listPeople, n, u);
      SelectionsConcat(b, a, listPeople, n, u);
      RateAfterSelectionsAgree(items, listPeople, a + b, b + a, n, u);
    }
    if DerivedKeysUnique(items) && QuantitiesConsistent(items, listPeople) {
      QuantityFollowsRate(ab, listPeople, n, u);
      QuantityFollowsRate(ba, listPeople, n, u);
    }
  }

  /** Two recipes, added either way round, give every key the same rate and
      (on a valid list) the same quantity. */
  lemma TwoRecipesCommute(items: seq<Item>, listPeople: int, first: Selection, second: Selection,
                          n: string, u: string)
    requires listPeople >= 1
    ensures RateOf(AddSelections(items, listPeople, [first, second]), n, u)
         == RateOf(AddSelections(items, listPeople, [second, first]), n, u)
    ensures DerivedKeysUnique(items) && QuantitiesConsistent(items, listPeople) ==>
      QuantityOf(AddSelections(items, listPeople, [first, second]), n, u)
      == QuantityOf(AddSelections(items, listPeople, [second, first]), n, u)
  {
    assert [first, second] == [first] + [second];
    assert [second, first] == [second] + [first];
    AddSelectionsOrderIndependent(items, listPeople, [first], [second], n, u);
  }

  /** A manual row is never a merge target, even with the same name and unit:
      against manual rows only, a contribution always becomes a new row. */
  lemma ManualRowsAreNeverMerged(items: seq<Item>, listPeople: int, name: string, unit: string,
                                 contrib: TenThousandths)
    requires forall k :: 0 <= k < |items| ==> items[k].IsManual()
    ensures MergeContribution(items, listPeople, name, unit, contrib)
         == items + [NewItem(name, unit, DerivedQuantity(listPeople, contrib), Some(contrib))]
  {
    assert FindExisting(items, name, unit).None?;
  }

  /** The nested loops of the source: for each selection, for each of its
      recipe's lines, merge the line's contribution into the current rows. */
  method MergeSelectionsInPlace(items: seq<Item>, listPeople: int, selections: seq<Selection>)
    returns (rows: seq<Item>)
    requires listPeople >= 1
    ensures rows == AddSelections(items, listPeople, selections)
    ensures KeepsRows(items, rows)
  {
    rows := items;
    var s := 0;
    while s < |selections|
      invariant 0 <= s <= |selections|
      invariant AddSelections(rows, listPeople, selections[s..]) == AddSelections(items, listPeople, selections)
      invariant KeepsRows(items, rows)
    {
      var selection := selections[s];
      var lines := selection.recipe.ingredients;
      var before := rows;
      var k := 0;
      while k < |lines|
        invariant 0 <= k <= |lines|
        invariant AddRecipe(rows, listPeople, selection.people, lines[k..])
               == AddRecipe(before, listPeople, selection.people, lines)
        invariant KeepsRows(items, rows)
      {
        var next := AddIngredient(rows, listPeople, selection.people, lines[k]);
        KeepsRowsTransitive(items, rows, next);
        assert lines[k..][1..] == lines[k + 1..];
        rows := next;
        k := k + 1;
      }
      assert selections[s..][1..] == selections[s + 1..];
      s := s + 1;
    }
  }
}

=== FILE: fixed_point.dfy ===
/** Fixed-point decimal arithmetic of the shopping-list engine.

    Every stored decimal is an integer count of a fixed unit:
    - absolute quantities and per-person recipe quantities in hundredths (2 decimal places),
    - per-person rates of list items in ten-thousandths (4 decimal places).
    Each `quantize` of the source uses the default decimal context, which rounds
    half to even; `RoundHalfEven` is that rounding, used at both precisions. */
module FixedPoint {

  /** A decimal with 2 fractional digits, counted in units of 0.01. */
  type Hundredths = int

  /** A decimal with 4 fractional digits, counted in units of 0.0001. */
  type TenThousandths = int

  function Abs(x: int): nat {
    if x < 0 then -x else x
  }

  predicate IsEven(x: int) {
    x % 2 == 0
  }

  /** `r` is the integer nearest to num/den, and an even one when num/den lies
      exactly halfway between two integers. */
  ghost predicate IsHalfEvenRounding(num: int, den: int, r: int)
    requires den > 0
  {
    && 2 * Abs(num - r * den) <= den
    && (2 * Abs(num - r * den) == den ==> IsEven(r))
  }

  /** num/den rounded to an integer, half to even. */
  function RoundHalfEven(num: int, den: int): (r: int)
    requires den > 0
    ensures IsHalfEvenRounding(num, den, r)
  {
    var q := num / den;
    var rem := num % den;
    assert num == q * den + rem;
    assert (q + 1) * den == q * den + den;
    if 2 * rem < den then q
    else if 2 * rem > den then q + 1
    else if q % 2 == 0 then q
    else q + 1
  }

  /** A multiple of `den` no larger than `den` is one of -den, 0, den. */
  lemma SmallMultiple(d: int, den: int)
    requires den > 0
    requires -den <= d * den <= den
    ensures -1 <= d <= 1
  {
  }

  /** At most one integer is a half-even rounding of num/den. */
  lemma HalfEvenRoundingsAgree(num: int, den: int, r: int, s: int)
    requires den > 0
    requires IsHalfEvenRounding(num, den, r)
    requires IsHalfEvenRounding(num, den, s)
    ensures r == s
  {
    var d := s - r;
    var er := num - r * den;
    var es := num - s * den;
    var m := d * den;
    assert er - es == m by {
      assert s * den - r * den == d * den;
    }
    // Both distances are at most den/2, so r and s are at most one apart, and
    // when they are one apart both distances are exactly den/2: both are ties,
    // so both are even.
    SmallMultiple(d, den);
    assert d != 0 ==> (m == den || m == -den);
    assert d != 0 ==> IsEven(r) && IsEven(s);
  }

  /** Half-even rounding is a function of the exact quotient: any integer with the
      nearest/ties-to-even property is the one `RoundHalfEven` returns. */
  lemma RoundHalfEvenUnique(num: int, den: int, r: int)
    requires den > 0
    requires IsHalfEvenRounding(num, den, r)
    ensures r == RoundHalfEven(num, den)
  {
    HalfEvenRoundingsAgree(num, den, r, RoundHalfEven(num, den));
  }

  /** Rounding an exact multiple returns the exact quotient. */
  lemma RoundHalfEvenExact(k: int, den: int)
    requires den > 0
    ensures RoundHalfEven(k * den, den) == k
  {
    assert k * den - k * den == 0;
    RoundHalfEvenUnique(k * den, den, k);
  }

  /** The headcount the source scales by: a stored count of 0 behaves like 1. */
  function EffectivePeople(count: int): (l: int)
    ensures l >= 1
    ensures count >= 1 ==> l == count
    ensures count < 1 ==> l == 1
  {
    if count > 1 then count else 1
  }

  /** The per-person rate a recipe ingredient contributes to a list:
      `quantity_per_person * people / listPeople`, quantized to 4 decimal places.
      `perPerson` is in hundredths, so the exact rate in ten-thousandths is
      perPerson * people * 100 / listPeople. */
  function ContributedRate(perPerson: Hundredths, people: int, listPeople: int): (r: TenThousandths)
    requires listPeople >= 1
    ensures IsHalfEvenRounding(perPerson * people * 100, listPeople, r)
  {
    RoundHalfEven(perPerson * people * 100, listPeople)
  }

  /** The absolute quantity of a derived item: `listPeople * rate`, quantized to
      2 decimal places. The product is in ten-thousandths. */
  function DerivedQuantity(listPeople: int, rate: TenThousandths): (q: Hundredths)
    ensures IsHalfEvenRounding(listPeople * rate, 100, q)
  {
    RoundHalfEven(listPeople * rate, 100)
  }

  /** Ties go to the even neighbour, not away from zero: 0.0050 at one person is
      0.00, 0.0150 is 0.02, and -0.0050 is -0.00. */
  lemma DerivedQuantityTiesToEven()
    ensures DerivedQuantity(1, 50) == 0
    ensures DerivedQuantity(1, 150) == 2
    ensures DerivedQuantity(1, 250) == 2
    ensures DerivedQuantity(1, -50) == 0
  {
    RoundHalfEvenUnique(50, 100, 0);
    RoundHalfEvenUnique(150, 100, 2);
    RoundHalfEvenUnique(250, 100, 2);
    RoundHalfEvenUnique(-50, 100, 0);
  }

  /** Rounding is symmetric about zero, as decimal quantization is. */
  lemma RoundHalfEvenNegate(num: int, den: int)
    requires den > 0
    ensures RoundHalfEven(-num, den) == -RoundHalfEven(num, den)
  {
    var r := RoundHalfEven(num, den);
    assert -num - (-r) * den == -(num - r * den);
    assert IsEven(-r) <==> IsEven(r);
    RoundHalfEvenUnique(-num, den, -r);
  }
}

=== FILE: forms.dfy ===
/** Form-level validation and selection (core/forms.py). */
module Forms {
  import opened Wrappers
  import opened FixedPoint
  import opened Models

  /** Why a submitted field is refused. */
  datatype FieldError =
    | BelowMinimum
    | TooManyDigits
    | TooManyDecimalPlaces
    | TooManyWholeDigits
    | InvalidChoice
    | Message(text: string)

  const DuplicateCategoryMessage: string := "Cette catégorie existe déjà."
  const DuplicateIngredientMessage: string := "Cet ingrédient existe déjà."
  const IngredientNotFoundMessage: string := "Ingrédient introuvable."

  // ---------------------------------------------------------------------------
  // Recipe selection (AddRecipesForm)
  // ---------------------------------------------------------------------------

  /** The headcount pre-filled for every recipe: a missing or zero value becomes
      1, and anything below 1 is raised to 1. */
  function DefaultPeople(given: Option<int>): (r: int)
    ensures r >= 1
    ensures given.Some? && given.value >= 1 ==> r == given.value
    ensures given.None? || given.value < 1 ==> r == 1
  {
    var n := if given.None? || given.value == 0 then 1 else given.value;
    if n > 1 then n else 1
  }

  /** One recipe as submitted: the selection tick box and the optional headcount. */
  datatype RecipeRow = RecipeRow(recipe: Recipe, selected: bool, people: Option<int>)

  /** The headcount field accepts an empty value or a whole number of at least 1. */
  predicate HasValidPeople(row: RecipeRow) {
    row.people.None? || row.people.value >= 1
  }

  /** The headcount used for a selected row: the entered value, or the default
      when the field was left empty. */
  function PeopleFor(row: RecipeRow, defaultPeople: int): (r: int)
    ensures HasValidPeople(row) && defaultPeople >= 1 ==> r >= 1
    ensures row.people.Some? && row.people.value >= 1 ==> r == row.people.value
    ensures row.people.None? ==> r == defaultPeople
  {
    match row.people
    case Some(p) => if p != 0 then p else defaultPeople
    case None => defaultPeople
  }

  /** The selected recipes with their headcounts, in the order of the rows. */
  function SelectedRecipes(rows: seq<RecipeRow>, defaultPeople: int): (r: seq<Selection>)
    ensures |r| <= |rows|
    ensures (forall i :: 0 <= i < |rows| ==> HasValidPeople(rows[i])) && defaultPeople >= 1 ==>
      forall k :: 0 <= k < |r| ==> r[k].people >= 1
  {
    if |rows| == 0 then []
    else
      var last := rows[|rows| - 1];
      SelectedRecipes(rows[..|rows| - 1], defaultPeople)
        + (if last.selected then [Selection(last.recipe, PeopleFor(last, defaultPeople))] else [])
  }

  /** The positions of the ticked rows, in increasing order. */
  function SelectedPositions(rows: seq<RecipeRow>): (r: seq<nat>)
    ensures forall k :: 0 <= k < |r| ==> r[k] < |rows| && rows[r[k]].selected
    ensures forall k, l :: 0 <= k < l < |r| ==> r[k] < r[l]
    ensures forall i :: 0 <= i < |rows| && rows[i].selected ==> i in r
  {
    if |rows| == 0 then []
    else
      var n := |rows| - 1;
      var prefix := SelectedPositions(rows[..n]);
      assert forall k :: 0 <= k < |prefix| ==> prefix[k] < n;
      prefix + (if rows[n].selected then [n] else [])
  }

  /** `SelectedRecipes` returns exactly the ticked rows, each once, in row order,
      each with the headcount `PeopleFor` gives it. */
  lemma {:induction false} SelectedRecipesAreTheTickedRows(rows: seq<RecipeRow>, defaultPeople: int)
    ensures |SelectedRecipes(rows, defaultPeople)| == |SelectedPositions(rows)|
    ensures forall k :: 0 <= k < |SelectedPositions(rows)| ==>
      var row := rows[SelectedPositions(rows)[k]];
      SelectedRecipes(rows, defaultPeople)[k] == Selection(row.recipe, PeopleFor(row, defaultPeople))
    decreases |rows|
  {
    if |rows| > 0 {
      var n := |rows| - 1;
      SelectedRecipesAreTheTickedRows(rows[..n], defaultPeople);
      assert forall i :: 0 <= i < n ==> rows[..n][i] == rows[i];
    }
  }

  // ---------------------------------------------------------------------------
  // Unique names (IngredientCategoryForm / IngredientForm .clean_name)
  // ---------------------------------------------------------------------------

  /** The characters Python's `str.strip()` removes, by code point. */
  predicate IsSpace(c: char) {
    var n := c as int;
    || n == 0x20 || 0x09 <= n <= 0x0D || 0x1C <= n <= 0x1F
    || n == 0x85 || n == 0xA0 || n == 0x1680 || 0x2000 <= n <= 0x200A
    || n == 0x2028 || n == 0x2029 || n == 0x202F || n == 0x205F || n == 0x3000
  }

  /** `s` without its leading whitespace. */
  function StripStart(s: string): (r: string)
    ensures |r| <= |s| && r == s[|s| - |r|..]
    ensures |r| > 0 ==> !IsSpace(r[0])
    ensures forall k :: 0 <= k < |s| - |r| ==> IsSpace(s[k])
  {
    if |s| > 0 && IsSpace(s[0]) then StripStart(s[1..]) else s
  }

  /** `s` without its trailing whitespace. */
  function StripEnd(s: string): (r: string)
    ensures |r| <= |s| && r == s[..|r|]
    ensures |r| > 0 ==> !IsSpace(r[|r| - 1])
    ensures forall k :: |r| <= k < |s| ==> IsSpace(s[k])
  {
    if |s| > 0 && IsSpace(s[|s| - 1]) then StripEnd(s[..|s| - 1]) else s
  }

  /** The number of leading whitespace characters of `s`. */
  function LeadingSpaces(s: string): (n: nat)
    ensures n <= |s|
  {
    |s| - |StripStart(s)|
  }

  lemma StripParts(s: string, lead: nat, tail: string, r: string)
    requires lead <= |s| && tail == s[lead..]
    requires |r| <= |tail| && r == tail[..|r|]
    requires forall k :: |r| <= k < |tail| ==> IsSpace(tail[k])
    ensures lead + |r| <= |s| && r == s[lead..lead + |r|]
    ensures forall k :: lead + |r| <= k < |s| ==> IsSpace(s[k])
  {
    assert s[lead..lead + |r|] == s[lead..][..|r|];
    forall k | lead + |r| <= k < |s|
      ensures IsSpace(s[k])
    {
      assert s[k] == tail[k - lead];
    }
  }

  /** `s` without leading or trailing whitespace: the run of `s` that starts at
      its first non-space character and ends at its last one. */
  function Strip(s: string): (r: string)
    ensures |r| > 0 ==> !IsSpace(r[0]) && !IsSpace(r[|r| - 1])
    ensures LeadingSpaces(s) + |r| <= |s| && r == s[LeadingSpaces(s)..LeadingSpaces(s) + |r|]
    ensures forall k :: 0 <= k < LeadingSpaces(s) ==> IsSpace(s[k])
    ensures forall k :: LeadingSpaces(s) + |r| <= k < |s| ==> IsSpace(s[k])
  {
    var tail := StripStart(s);
    var r := StripEnd(tail);
    StripParts(s, LeadingSpaces(s), tail, r);
    r
  }

  /** Stripping a stripped name changes nothing. */
  lemma StripIsIdempotent(s: string)
    ensures Strip(Strip(s)) == Strip(s)
  {
    var r := Strip(s);
    if |r| > 0 {
      assert StripStart(r) == r;
      assert StripEnd(r) == r;
    }
  }

  /** The case folding of the case-insensitive name lookup: ASCII letters only. */
  function LowerAscii(c: char): (d: char)
    ensures 'A' <= c <= 'Z' ==> 'a' <= d <= 'z'
    ensures !('A' <= c <= 'Z') ==> d == c
  {
    if 'A' <= c <= 'Z' then (c as int - 'A' as int + 'a' as int) as char else c
  }

  function FoldCase(s: string): (r: string)
    ensures |r| == |s|
  {
    seq(|s|, i requires 0 <= i < |s| => LowerAscii(s[i]))
  }

  /** A stored category or ingredient: its primary key and name. */
  datatype NamedRecord = NamedRecord(pk: nat, name: string)

  /** Whether `record` counts against `name` for the record being edited, whose
      key is `instancePk` (absent or 0 for a record not yet saved, which
      excludes nothing). */
  predicate Clashes(name: string, instancePk: Option<nat>, record: NamedRecord) {
    && FoldCase(record.name) == FoldCase(name)
    && !(instancePk.Some? && instancePk.value != 0 && record.pk == instancePk.value)
  }

  function HasClash(records: seq<NamedRecord>, name: string, instancePk: Option<nat>): (b: bool)
    ensures b <==> exists i :: 0 <= i < |records| && Clashes(name, instancePk, records[i])
  {
    if |records| == 0 then false
    else if Clashes(name, instancePk, records[0]) then true
    else
      var b := HasClash(records[1..], name, instancePk);
      assert forall i :: 1 <= i < |records| ==> records[1..][i - 1] == records[i];
      b
  }

  /** The shared body of both `clean_name` validators: the stripped name, refused
      when another stored record has the same name up to case. */
  function CleanUniqueName(records: seq<NamedRecord>, instancePk: Option<nat>, raw: string,
                           duplicateMessage: string): (r: Result<string, FieldError>)
    ensures r.Success? ==> r.value == Strip(raw)
    ensures r.Failure? ==> r.error == Message(duplicateMessage)
    ensures r.Failure? <==> exists i :: 0 <= i < |records| && Clashes(Strip(raw), instancePk, records[i])
  {
    var name := Strip(raw);
    if HasClash(records, name, instancePk) then Failure(Message(duplicateMessage)) else Success(name)
  }

  function CleanCategoryName(categories: seq<NamedRecord>, instancePk: Option<nat>, raw: string): (r: Result<string, FieldError>)
    ensures r.Success? ==> r.value == Strip(raw)
    ensures r.Failure? ==> r.error == Message(DuplicateCategoryMessage)
    ensures r.Failure? <==> exists i :: 0 <= i < |categories| && Clashes(Strip(raw), instancePk, categories[i])
  {
    CleanUniqueName(categories, instancePk, raw, DuplicateCategoryMessage)
  }

  function CleanIngredientName(ingredients: seq<NamedRecord>, instancePk: Option<nat>, raw: string): (r: Result<string, FieldError>)
    ensures r.Success? ==> r.value == Strip(raw)
    ensures r.Failure? ==> r.error == Message(DuplicateIngredientMessage)
    ensures r.Failure? <==> exists i :: 0 <= i < |ingredients| && Clashes(Strip(raw), instancePk, ingredients[i])
  {
    CleanUniqueName(ingredients, instancePk, raw, DuplicateIngredientMessage)
  }

  /** No two stored names are equal up to case. */
  ghost predicate NamesUnique(records: seq<NamedRecord>) {
    forall i, j :: 0 <= i < j < |records| ==> FoldCase(records[i].name) != FoldCase(records[j].name)
  }

  /** Editing a stored record and submitting its own name again (in any case,
      with any surrounding whitespace) is accepted. */
  lemma OwnNameIsAccepted(records: seq<NamedRecord>, i: nat, raw: string, message: string)
    requires NamesUnique(records)
    requires i < |records| && records[i].pk != 0
    requires FoldCase(Strip(raw)) == FoldCase(records[i].name)
    ensures CleanUniqueName(records, Some(records[i].pk), raw, message) == Success(Strip(raw))
  {
    forall j | 0 <= j < |records| && j != i
      ensures FoldCase(records[j].name) != FoldCase(records[i].name)
    {
      if j < i {
        assert FoldCase(records[j].name) != FoldCase(records[i].name);
      } else {
        assert FoldCase(records[i].name) != FoldCase(records[j].name);
      }
    }
  }

  /** A new record whose name the validator accepts keeps stored names unique up to case. */
  lemma AcceptedNameKeepsNamesUnique(records: seq<NamedRecord>, raw: string, message: string, newPk: nat)
    requires NamesUnique(records)
    requires CleanUniqueName(records, None, raw, message).Success?
    ensures NamesUnique(records + [NamedRecord(newPk, Strip(raw))])
  {
    var after := records + [NamedRecord(newPk, Strip(raw))];
    forall i, j | 0 <= i < j < |after|
      ensures FoldCase(after[i].name) != FoldCase(after[j].name)
    {
      if j == |records| {
        assert !Clashes(Strip(raw), None, records[i]);
      } else {
        assert after[i] == records[i] && after[j] == records[j];
      }
    }
  }

  // ---------------------------------------------------------------------------
  // Ingredient lookup (clean_ingredient_id of both quick-add forms)
  // ---------------------------------------------------------------------------

  function FindIngredient(catalog: seq<Ingredient>, id: int): (r: Option<Ingredient>)
    ensures r.Some? ==> r.value in catalog && r.value.id == id
    ensures r.None? <==> forall i :: 0 <= i < |catalog| ==> catalog[i].id != id
  {
    if |catalog| == 0 then None
    else if catalog[0].id == id then Some(catalog[0])
    else
      var r := FindIngredient(catalog[1..], id);
      assert forall i :: 1 <= i < |catalog| ==> catalog[1..][i - 1] == catalog[i];
      r
  }

  /** The ingredient a submitted id names: ids below 1 fail the field's minimum,
      unknown ids fail with the not-found message. */
  function CleanIngredientId(catalog: seq<Ingredient>, raw: int): (r: Result<Ingredient, FieldError>)
    ensures r.Success? <==> raw >= 1 && exists i :: 0 <= i < |catalog| && catalog[i].id == raw
    ensures r.Success? ==> r.value in catalog && r.value.id == raw
    ensures raw < 1 ==> r == Failure(BelowMinimum)
    ensures raw >= 1 && r.Failure? ==> r.error == Message("Ingrédient introuvable.")
  {
    if raw < 1 then Failure(BelowMinimum)
    else match FindIngredient(catalog, raw)
      case Some(ingredient) => Success(ingredient)
      case None => Failure(Message(IngredientNotFoundMessage))
  }

  // ---------------------------------------------------------------------------
  // Quick-add quantities and units
  // ---------------------------------------------------------------------------

  /** A submitted decimal as written: `coefficient` × 10^-`places`, where `places`
      counts the digits written after the decimal point (trailing zeros included). */
  datatype DecimalInput = DecimalInput(coefficient: int, places: nat)

  function Pow10(n: nat): (p: nat)
    ensures p >= 1
  {
    if n == 0 then 1 else 10 * Pow10(n - 1)
  }

  /** The number of decimal digits of `n` (0 has one digit). */
  function DigitCount(n: nat): (d: nat)
    ensures d >= 1
  {
    if n < 10 then 1 else 1 + DigitCount(n / 10)
  }

  lemma {:induction false} DigitCountBound(n: nat, k: nat)
    requires k >= 1 || n >= 1
    ensures DigitCount(n) <= k <==> n < Pow10(k)
    decreases k
  {
    if n >= 10 && k > 1 {
      DigitCountBound(n / 10, k - 1);
    } else if n >= 10 && k == 1 {
      assert DigitCount(n) >= 2;
    } else if k > 1 {
      assert Pow10(k) >= 10 by { assert Pow10(k) == 10 * Pow10(k - 1); }
    }
  }

  /** The two-decimal quantity fields of the quick-add forms, with `maxDigits`
      digits in all: at least 0.01, at most two decimal places, at most
      `maxDigits` - 2 digits before the point. The cleaned value is in hundredths. */
  function CleanDecimal(input: DecimalInput, maxDigits: nat): (r: Result<Hundredths, FieldError>)
    requires maxDigits >= 2
    ensures r.Success? <==>
      && input.places <= 2
      && input.coefficient * 100 >= Pow10(input.places)
      && input.coefficient < Pow10(maxDigits - 2 + input.places)
    ensures r.Success? ==> r.value >= 1 && r.value < Pow10(maxDigits)
    ensures r.Success? ==> r.value * Pow10(input.places) == input.coefficient * 100
  {
    var c := input.coefficient;
    var p := input.places;
    var magnitude := if c < 0 then -c else c;
    var digits := if DigitCount(magnitude) > p then DigitCount(magnitude) else p;
    if c * 100 < Pow10(p) then Failure(BelowMinimum)
    else
      CleanDecimalFacts(c, p, maxDigits);
      if digits > maxDigits then Failure(TooManyDigits)
      else if p > 2 then Failure(TooManyDecimalPlaces)
      else if digits - p > maxDigits - 2 then Failure(TooManyWholeDigits)
      else Success(c * Pow10(2 - p))
  }

  lemma CleanDecimalFacts(c: int, p: nat, maxDigits: nat)
    requires maxDigits >= 2 && c >= 1
    ensures p <= 2 ==> c * Pow10(2 - p) * Pow10(p) == c * 100
    ensures p <= 2 ==> (c * Pow10(2 - p) < Pow10(maxDigits) <==> c < Pow10(maxDigits - 2 + p))
    ensures p <= 2 ==>
      ((if DigitCount(c) > p then DigitCount(c) else p) - p <= maxDigits - 2 <==> c < Pow10(maxDigits - 2 + p))
  {
    if p <= 2 {
      DigitCountBound(c, maxDigits - 2 + p);
      assert Pow10(2 - p) * Pow10(p) == 100 by {
        assert Pow10(1) == 10 && Pow10(2) == 100;
      }
      Pow10Split(maxDigits - 2 + p, 2 - p);
      assert c * Pow10(2 - p) * Pow10(p) == c * (Pow10(2 - p) * Pow10(p));
    }
  }

  lemma {:induction false} Pow10Split(a: nat, b: nat)
    ensures Pow10(a + b) == Pow10(a) * Pow10(b)
    decreases b
  {
    if b > 0 {
      Pow10Split(a, b - 1);
      assert Pow10(a + b) == 10 * Pow10(a + b - 1);
    }
  }

  /** Any whole number of hundredths from 0.01 up to the field's limit, written
      with two decimals, is accepted unchanged. */
  lemma CleanDecimalRoundTrip(q: int, maxDigits: nat)
    requires maxDigits >= 2
    requires 1 <= q < Pow10(maxDigits)
    ensures CleanDecimal(DecimalInput(q, 2), maxDigits) == Success(q)
  {
    assert Pow10(2) == 100;
    assert maxDigits - 2 + 2 == maxDigits;
  }

  /** `quantity_per_person` of the recipe quick-add form: 8 digits, 2 decimals. */
  function CleanQuantityPerPerson(input: DecimalInput): (r: Result<Hundredths, FieldError>)
    ensures r.Success? ==> 1 <= r.value < 1_0000_0000
    ensures r.Success? <==>
      (input.places <= 2 && input.coefficient * 100 >= Pow10(input.places)
       && input.coefficient < Pow10(6 + input.places))
  {
    assert Pow10(8) == 1_0000_0000;
    CleanDecimal(input, 8)
  }

  /** `quantity` of the manual-item quick-add form: 10 digits, 2 decimals. */
  function CleanManualQuantity(input: DecimalInput): (r: Result<Hundredths, FieldError>)
    ensures r.Success? ==> 1 <= r.value < 100_0000_0000
    ensures r.Success? <==>
      (input.places <= 2 && input.coefficient * 100 >= Pow10(input.places)
       && input.coefficient < Pow10(8 + input.places))
  {
    assert Pow10(10) == 100_0000_0000;
    CleanDecimal(input, 10)
  }

  /** The optional unit field: empty, or one of the unit codes. */
  function CleanUnit(raw: string): (r: Result<string, FieldError>)
    ensures r.Success? <==> raw == "" || raw in UnitCodes
    ensures r.Success? ==> r.value == raw
    ensures r.Failure? ==> r.error == InvalidChoice
  {
    if raw == "" || raw in UnitCodes then Success(raw) else Failure(InvalidChoice)
  }

  /** The eight stored codes are accepted; the display labels and the English
      names of the spoon and pinch units are not codes. */
  lemma UnitCodesAccepted()
    ensures forall u :: u in UnitCodes ==> CleanUnit(u) == Success(u)
    ensures CleanUnit("") == Success("")
    ensures CleanUnit("unité(s)").Failure? && CleanUnit("c. à s.").Failure?
    ensures CleanUnit("c. à c.").Failure? && CleanUnit("pincée").Failure?
    ensures CleanUnit("tablespoon").Failure? && CleanUnit("teaspoon").Failure? && CleanUnit("pinch").Failure?
  {
  }
}

=== FILE: models.dfy ===
/** The records of the shopping-list core (core/models.py) and the behaviour
    attached to them: name mirroring on save, recalculation of a derived item,
    and closing a list. */
module Models {
  import opened Wrappers
  import opened FixedPoint

  /** The stored codes of the unit enumeration, in declaration order. */
  const UnitCodes: seq<string> := ["g", "kg", "ml", "l", "unit", "cs", "cc", "pincee"]

  /** An opaque instant, supplied by the caller wherever the source reads the clock. */
  type Timestamp = int

  /** A catalog ingredient; `category` is the id of its category, if any. */
  datatype Ingredient = Ingredient(id: nat, name: string, category: Option<nat>)

  /** One line of a recipe: an ingredient name, a unit code (possibly empty) and
      the quantity needed for one person, in hundredths. */
  datatype RecipeIngredient = RecipeIngredient(name: string, unit: string, perPerson: Hundredths)

  datatype Recipe = Recipe(name: string, ingredients: seq<RecipeIngredient>)

  /** A shopping-list row. `perPerson` is the per-person rate in ten-thousandths;
      rows without one are manual entries, rows with one are derived from recipes. */
  datatype Item = Item(
    ingredient: Option<Ingredient>,
    name: string,
    unit: string,
    quantity: Hundredths,
    perPerson: Option<TenThousandths>,
    checked: bool)
  {
    predicate IsManual() {
      perPerson.None?
    }
  }

  /** A recipe chosen for a list, with the headcount it is cooked for. */
  datatype Selection = Selection(recipe: Recipe, people: int)

  /** A shopping list with its rows, in insertion order. */
  datatype ShoppingList = ShoppingList(
    name: string,
    peopleCount: nat,
    isClosed: bool,
    closedAt: Option<Timestamp>,
    items: seq<Item>)

  /** A freshly created list with the given people count: open, never closed, no rows. */
  function NewList(name: string, peopleCount: nat): (l: ShoppingList)
    ensures l.name == name && l.peopleCount == peopleCount
    ensures !l.isClosed && l.closedAt.None?
    ensures l.items == []
  {
    ShoppingList(name, peopleCount, false, None, [])
  }

  /** The people count a list gets when none is given. */
  const DefaultPeopleCount: nat := 1

  /** A list created without a people count is for one person. */
  function NewDefaultList(name: string): (l: ShoppingList)
    ensures l.peopleCount == DefaultPeopleCount == 1
    ensures l.name == name && !l.isClosed && l.closedAt.None? && l.items == []
  {
    NewList(name, DefaultPeopleCount)
  }

  /** A freshly created, unlinked row: not checked. It is a manual row exactly
      when it is created without a rate. */
  function NewItem(name: string, unit: string, quantity: Hundredths, perPerson: Option<TenThousandths>): (it: Item)
    ensures it.ingredient.None? && !it.checked
    ensures it.name == name && it.unit == unit && it.quantity == quantity
    ensures it.perPerson == perPerson
    ensures it.IsManual() <==> perPerson.None?
  {
    Item(None, name, unit, quantity, perPerson, false)
  }

  /** The name shown for a row: the linked ingredient's, else the stored one. */
  function DisplayName(item: Item): string {
    if item.ingredient.Some? then item.ingredient.value.name else item.name
  }

  /** Saving a row copies the linked ingredient's name into `name`; an unlinked
      row keeps its stored name. */
  function Save(item: Item): (r: Item)
    ensures r.name == DisplayName(item)
    ensures item.ingredient.None? ==> r == item
    ensures r.(name := item.name) == item
  {
    if item.ingredient.Some? then item.(name := item.ingredient.value.name) else item
  }

  /** Saving never changes what is displayed, and saving twice is saving once. */
  lemma SaveKeepsDisplayName(item: Item)
    ensures DisplayName(Save(item)) == DisplayName(item)
    ensures Save(Save(item)) == Save(item)
  {
  }

  /** The derived-value invariant of a row at headcount `listPeople`: a row with
      a rate holds that rate times the headcount, at 2 decimal places. */
  ghost predicate QuantityIsDerived(item: Item, listPeople: int) {
    item.perPerson.Some? ==> item.quantity == DerivedQuantity(listPeople, item.perPerson.value)
  }

  /** Re-derives a row's quantity from its rate and the list's stored people
      count; a manual row is left as it is. Only the quantity is persisted. */
  function Recalculate(item: Item, peopleCount: nat): (r: Item)
    ensures item.IsManual() ==> r == item
    ensures r.(quantity := item.quantity) == item
    ensures QuantityIsDerived(r, EffectivePeople(peopleCount))
    ensures r.perPerson.Some? ==> IsHalfEvenRounding(EffectivePeople(peopleCount) * r.perPerson.value, 100, r.quantity)
  {
    if item.perPerson.None? then item
    else item.(quantity := DerivedQuantity(EffectivePeople(peopleCount), item.perPerson.value))
  }

  /** A stored count of 0 recalculates as 1, and recalculating twice is
      recalculating once. */
  lemma RecalculateClampsAndSettles(item: Item, peopleCount: nat)
    ensures Recalculate(item, 0) == Recalculate(item, 1)
    ensures Recalculate(Recalculate(item, peopleCount), peopleCount) == Recalculate(item, peopleCount)
  {
  }

  /** Closing marks the list closed and stamps the given instant; it does not look
      at whether the list was already closed, so a second close re-stamps it. */
  function Close(list: ShoppingList, now: Timestamp): (r: ShoppingList)
    ensures r.isClosed && r.closedAt == Some(now)
    ensures r.name == list.name && r.peopleCount == list.peopleCount && r.items == list.items
  {
    list.(isClosed := true, closedAt := Some(now))
  }
}

=== FILE: scenarios.dfy ===
/** Worked examples of the engine on concrete lists: scaling a recipe up,
    merging into an existing derived row, changing the headcount, and keeping
    manual rows apart. Quantities are in hundredths, rates in ten-thousandths. */
module Scenarios {
  import opened Wrappers
  import opened FixedPoint
  import opened Models
  import opened Aggregation
  import opened Forms
  import opened Views

  /** Tomato sauce: 200.00 g of tomatoes per person. */
  function TomatoSauce(): Recipe {
    Recipe("Sauce tomate", [RecipeIngredient("tomate", "g", 20000)])
  }

  /** Selected for 4 people on a 4-person list: ratio 1, rate 200.0000,
      quantity 800.00 g, in one new unchecked derived row. */
  lemma ScaleUp()
    ensures AddRecipes(NewList("Courses", 4), [RecipeRow(TomatoSauce(), true, Some(4))])
         == Success(NewList("Courses", 4).(items := [Item(None, "tomate", "g", 80000, Some(2000000), false)]))
  {
    RoundHalfEvenExact(2000000, 4);
    RoundHalfEvenExact(80000, 100);
    SelectedRecipesAreTheTickedRows([RecipeRow(TomatoSauce(), true, Some(4))], 4);
  }

  /** The same contribution merged into a row at 50.0000 per person: the rate
      becomes 250.0000 and the quantity 1000.00 g; no row is added. */
  lemma MergeIntoExisting()
    ensures AddRecipes(NewList("Courses", 4).(items := [Item(None, "tomate", "g", 20000, Some(500000), false)]),
                       [RecipeRow(TomatoSauce(), true, None)])
         == Success(NewList("Courses", 4).(items := [Item(None, "tomate", "g", 100000, Some(2500000), false)]))
  {
    var rows := [RecipeRow(TomatoSauce(), true, None)];
    var items := [Item(None, "tomate", "g", 20000, Some(500000), false)];
    RoundHalfEvenExact(2000000, 4);
    RoundHalfEvenExact(100000, 100);
    SelectedRecipesAreTheTickedRows(rows, 4);
    assert SelectedRecipes(rows, 4) == [Selection(TomatoSauce(), 4)];
    assert ContributedRate(20000, 4, 4) == 2000000;
    assert FindExisting(items, "tomate", "g") == Some(0);
    assert DerivedQuantity(4, 2500000) == 100000;
    assert AddIngredient(items, 4, 4, TomatoSauce().ingredients[0]) == [Item(None, "tomate", "g", 100000, Some(2500000), false)];
    assert AddRecipe(items, 4, 4, TomatoSauce().ingredients) == [Item(None, "tomate", "g", 100000, Some(2500000), false)];
  }

  /** Moving the merged list to 6 people: the derived row becomes 1500.00 g and
      a manual 5.00 kg row stays at 5.00 kg. */
  lemma HeadcountChange()
    ensures UpdatePeople(NewList("Courses", 4).(items := [
              Item(None, "tomate", "g", 100000, Some(2500000), false),
              Item(None, "farine", "kg", 500, None, false)]), 6)
         == Success(NewList("Courses", 6).(items := [
              Item(None, "tomate", "g", 150000, Some(2500000), false),
              Item(None, "farine", "kg", 500, None, false)]))
  {
    var items := [Item(None, "tomate", "g", 100000, Some(2500000), false), Item(None, "farine", "kg", 500, None, false)];
    RoundHalfEvenExact(150000, 100);
    assert DerivedQuantity(6, 2500000) == 150000;
    assert RecalculateAll(items, 6) == [
      Item(None, "tomate", "g", 150000, Some(2500000), false), Item(None, "farine", "kg", 500, None, false)];
  }

  /** A people count of 0 is stored as entered and scales like 1. */
  lemma ZeroPeopleScalesLikeOne()
    ensures UpdatePeople(NewList("Courses", 4).(items := [Item(None, "tomate", "g", 100000, Some(2500000), false)]), 0)
         == Success(NewList("Courses", 0).(items := [Item(None, "tomate", "g", 25000, Some(2500000), false)]))
  {
    var items := [Item(None, "tomate", "g", 100000, Some(2500000), false)];
    RoundHalfEvenExact(25000, 100);
    assert DerivedQuantity(1, 2500000) == 25000;
    assert RecalculateAll(items, 0) == [Item(None, "tomate", "g", 25000, Some(2500000), false)];
  }

  /** A recipe for 3 on a 2-person list: 0.01 per person scales to 0.0150 per
      person, stored as 0.03 in all; for 1 on a 8-person list 0.01 scales to
      0.00125, a tie, rounded to the even 0.0012. */
  lemma UnevenRatios()
    ensures ContributedRate(1, 3, 2) == 150
    ensures DerivedQuantity(2, 150) == 3
    ensures ContributedRate(1, 1, 8) == 12
  {
    RoundHalfEvenExact(150, 2);
    RoundHalfEvenExact(3, 100);
    RoundHalfEvenUnique(100, 8, 12);
  }

  /** 0.07 per person for 57 people on a 56-person list is exactly 0.07125 per
      person, a tie, which the exact ratio rounds to the even 0.0712. */
  lemma ExactRatioTie()
    ensures ContributedRate(7, 57, 56) == 712
  {
    RoundHalfEvenUnique(39900, 56, 712);
  }

  /** A manual row with the recipe's name and unit is left alone; the recipe's
      contribution becomes a separate derived row. */
  lemma ManualRowIsKeptApart()
    ensures AddRecipes(NewList("Courses", 4).(items := [Item(None, "tomate", "g", 50000, None, false)]),
                       [RecipeRow(TomatoSauce(), true, Some(4))])
         == Success(NewList("Courses", 4).(items := [
              Item(None, "tomate", "g", 50000, None, false),
              Item(None, "tomate", "g", 80000, Some(2000000), false)]))
  {
    var rows := [RecipeRow(TomatoSauce(), true, Some(4))];
    var items := [Item(None, "tomate", "g", 50000, None, false)];
    var derived := Item(None, "tomate", "g", 80000, Some(2000000), false);
    RoundHalfEvenExact(2000000, 4);
    RoundHalfEvenExact(80000, 100);
    SelectedRecipesAreTheTickedRows(rows, 4);
    assert SelectedRecipes(rows, 4) == [Selection(TomatoSauce(), 4)];
    assert ContributedRate(20000, 4, 4) == 2000000;
    assert DerivedQuantity(4, 2000000) == 80000;
    ManualRowsAreNeverMerged(items, 4, "tomate", "g", 2000000);
    assert NewItem("tomate", "g", DerivedQuantity(4, 2000000), Some(2000000)) == derived;
    assert AddIngredient(items, 4, 4, TomatoSauce().ingredients[0]) == items + [derived];
    assert AddRecipe(items, 4, 4, TomatoSauce().ingredients) == items + [derived];
    assert AddSelections(items, 4, [Selection(TomatoSauce(), 4)]) == items + [derived];
    assert items + [derived] == [items[0], derived];
  }

  /** Ticking nothing is refused with the selection message and stores nothing. */
  lemma NothingTicked()
    ensures AddRecipes(NewList("Courses", 4), [RecipeRow(TomatoSauce(), false, Some(4))])
         == Failure(InvalidForm(Message(NoRecipeSelectedMessage)))
  {
  }
}

=== FILE: views.dfy ===
/** The shopping-list operations behind the views of core/views.py, without
    their HTTP handling: each takes the stored list and the cleaned request
    data and returns the list to store, or the reason the request is refused
    (in which case nothing is stored). */
module Views {
  import opened Wrappers
  import opened FixedPoint
  import opened Models
  import opened Aggregation
  import opened Forms

  /** Why an operation is refused. */
  datatype Error =
    | ListClosed(message: string)
    | NotFound
    | InvalidForm(error: FieldError)

  const ClosedForItemsMessage: string := "La liste est clôturée, impossible d'ajouter des éléments."
  const ClosedForRecipesMessage: string := "La liste est clôturée, impossible d'ajouter des recettes."
  const ClosedForPeopleMessage: string := "La liste est clôturée, impossible de modifier le nombre de personnes."
  const ClosedForToggleMessage: string := "La liste est clôturée, impossible de modifier les achats."
  const ClosedForRemoveMessage: string := "La liste est clôturée, impossible de supprimer des éléments."
  const NoRecipeSelectedMessage: string := "Sélectionnez au moins une recette."

  /** The list invariant: derived rows have distinct (name, unit) keys and each
      holds its rate times the effective headcount, at 2 decimal places. */
  ghost predicate Valid(list: ShoppingList) {
    && DerivedKeysUnique(list.items)
    && QuantitiesConsistent(list.items, EffectivePeople(list.peopleCount))
  }

  /** `after` differs from `before` at most in its rows. */
  predicate SameRecord(before: ShoppingList, after: ShoppingList) {
    after.(items := before.items) == before
  }

  // ---------------------------------------------------------------------------
  // Adding recipes (shopping_list_add_recipes)
  // ---------------------------------------------------------------------------

  /** No recipe row is ticked exactly when the selection is empty. */
  lemma EmptySelectionMeansNothingTicked(rows: seq<RecipeRow>, defaultPeople: int)
    ensures |SelectedRecipes(rows, defaultPeople)| == 0 <==> forall i :: 0 <= i < |rows| ==> !rows[i].selected
  {
    SelectedRecipesAreTheTickedRows(rows, defaultPeople);
    var pos := SelectedPositions(rows);
    if |pos| > 0 {
      assert rows[pos[0]].selected;
    }
  }

  /** Merges the ticked recipes into an open list. Each recipe is scaled by its
      own headcount over the list's effective headcount; rows left empty default
      to that headcount. */
  function AddRecipes(list: ShoppingList, rows: seq<RecipeRow>): (r: Result<ShoppingList, Error>)
    ensures list.isClosed ==> r == Failure(ListClosed(ClosedForRecipesMessage))
    ensures !list.isClosed && (exists i :: 0 <= i < |rows| && !HasValidPeople(rows[i])) ==>
      r == Failure(InvalidForm(BelowMinimum))
    ensures (!list.isClosed && (forall i :: 0 <= i < |rows| ==> HasValidPeople(rows[i]))
             && (forall i :: 0 <= i < |rows| ==> !rows[i].selected)) ==>
      r == Failure(InvalidForm(Message(NoRecipeSelectedMessage)))
    ensures r.Success? <==>
      (!list.isClosed && (forall i :: 0 <= i < |rows| ==> HasValidPeople(rows[i]))
       && exists i :: 0 <= i < |rows| && rows[i].selected)
    ensures r.Success? ==> SameRecord(list, r.value) && KeepsRows(list.items, r.value.items)
    ensures r.Success? && Valid(list) ==> Valid(r.value)
    ensures r.Success? ==>
      forall n, u ::
        RateOf(r.value.items, n, u)
        == RateAfterSelections(list.items, EffectivePeople(list.peopleCount),
                               SelectedRecipes(rows, DefaultPeople(Some(list.peopleCount))), n, u)
  {
    if list.isClosed then Failure(ListClosed(ClosedForRecipesMessage))
    else if !(forall i :: 0 <= i < |rows| ==> HasValidPeople(rows[i])) then Failure(InvalidForm(BelowMinimum))
    else
      var listPeople := EffectivePeople(list.peopleCount);
      var selected := SelectedRecipes(rows, DefaultPeople(Some(list.peopleCount)));
      EmptySelectionMeansNothingTicked(rows, DefaultPeople(Some(list.peopleCount)));
      if |selected| == 0 then Failure(InvalidForm(Message(NoRecipeSelectedMessage)))
      else
        AddSelectionsRates(list.items, listPeople, selected);
        Success(list.(items := AddSelections(list.items, listPeople, selected)))
  }

  /** The headcount pre-filled in the recipe form is the list's effective headcount. */
  lemma DefaultPeopleIsEffectivePeople(peopleCount: nat)
    ensures DefaultPeople(Some(peopleCount)) == EffectivePeople(peopleCount)
  {
  }

  // ---------------------------------------------------------------------------
  // Headcount change (shopping_list_update_people + ShoppingListItem.recalculate)
  // ---------------------------------------------------------------------------

  /** Recalculates every row against a stored people count. */
  function RecalculateAll(items: seq<Item>, peopleCount: nat): (r: seq<Item>)
    ensures |r| == |items|
    ensures forall i :: 0 <= i < |items| && items[i].IsManual() ==> r[i] == items[i]
    ensures forall i :: 0 <= i < |items| ==> r[i].(quantity := items[i].quantity) == items[i]
    ensures QuantitiesConsistent(r, EffectivePeople(peopleCount))
  {
    seq(|items|, i requires 0 <= i < |items| => Recalculate(items[i], peopleCount))
  }

  /** Stores a new people count and re-derives every derived row from its rate.
      The count field accepts any non-negative integer; 0 scales like 1. */
  function UpdatePeople(list: ShoppingList, newCount: int): (r: Result<ShoppingList, Error>)
    ensures list.isClosed ==> r == Failure(ListClosed(ClosedForPeopleMessage))
    ensures !list.isClosed && newCount < 0 ==> r == Failure(InvalidForm(BelowMinimum))
    ensures r.Success? <==> !list.isClosed && newCount >= 0
    ensures r.Success? ==>
      && r.value.peopleCount == newCount
      && r.value.(peopleCount := list.peopleCount, items := list.items) == list
      && |r.value.items| == |list.items|
      && (forall i :: 0 <= i < |list.items| && list.items[i].IsManual() ==> r.value.items[i] == list.items[i])
      && (forall i :: 0 <= i < |list.items| ==>
            r.value.items[i].(quantity := list.items[i].quantity) == list.items[i])
      && (forall i :: 0 <= i < |list.items| && list.items[i].perPerson.Some? ==>
            IsHalfEvenRounding(EffectivePeople(newCount) * list.items[i].perPerson.value, 100, r.value.items[i].quantity))
    ensures r.Success? && DerivedKeysUnique(list.items) ==> Valid(r.value)
  {
    if list.isClosed then Failure(ListClosed(ClosedForPeopleMessage))
    else if newCount < 0 then Failure(InvalidForm(BelowMinimum))
    else
      var items := RecalculateAll(list.items, newCount);
      assert forall i :: 0 <= i < |items| ==> items[i].perPerson == list.items[i].perPerson;
      Success(list.(peopleCount := newCount, items := items))
  }

  /** Setting the same headcount twice stores the same list as setting it once. */
  lemma UpdatePeopleIsIdempotent(list: ShoppingList, newCount: int)
    requires UpdatePeople(list, newCount).Success?
    ensures UpdatePeople(UpdatePeople(list, newCount).value, newCount) == UpdatePeople(list, newCount)
  {
    var once := UpdatePeople(list, newCount).value;
    var twice := UpdatePeople(once, newCount).value;
    assert |twice.items| == |once.items|;
    forall i | 0 <= i < |once.items|
      ensures twice.items[i] == once.items[i]
    {
      RecalculateClampsAndSettles(list.items[i], newCount);
    }
    assert twice.items == once.items;
    assert twice == once;
  }

  // ---------------------------------------------------------------------------
  // Manual rows, toggling, removal (shopping_list_detail / _toggle_item / _remove_item)
  // ---------------------------------------------------------------------------

  /** Appends a manual row with the given absolute quantity; never merges. */
  function AddManualItem(list: ShoppingList, name: string, unit: string, quantity: Hundredths): (r: Result<ShoppingList, Error>)
    ensures list.isClosed ==> r == Failure(ListClosed(ClosedForItemsMessage))
    ensures !list.isClosed ==> r.Success?
    ensures r.Success? ==>
      && SameRecord(list, r.value)
      && |r.value.items| == |list.items| + 1
      && r.value.items[..|list.items|] == list.items
      && var it := r.value.items[|list.items|];
         it.IsManual() && it.ingredient.None? && !it.checked
         && it.name == name && it.unit == unit && it.quantity == quantity
  {
    if list.isClosed then Failure(ListClosed(ClosedForItemsMessage))
    else Success(list.(items := list.items + [NewItem(name, unit, quantity, None)]))
  }

  /** Flips the checked flag of the row at `index`. A missing row is reported
      before the closed state is looked at. */
  function ToggleItem(list: ShoppingList, index: int): (r: Result<ShoppingList, Error>)
    ensures !(0 <= index < |list.items|) ==> r == Failure(NotFound)
    ensures 0 <= index < |list.items| && list.isClosed ==> r == Failure(ListClosed(ClosedForToggleMessage))
    ensures r.Success? <==> 0 <= index < |list.items| && !list.isClosed
    ensures r.Success? ==>
      && SameRecord(list, r.value)
      && |r.value.items| == |list.items|
      && r.value.items[index].checked == !list.items[index].checked
      && r.value.items[index].(checked := list.items[index].checked) == list.items[index]
      && forall j :: 0 <= j < |list.items| && j != index ==> r.value.items[j] == list.items[j]
  {
    if !(0 <= index < |list.items|) then Failure(NotFound)
    else if list.isClosed then Failure(ListClosed(ClosedForToggleMessage))
    else
      var item := list.items[index];
      Success(list.(items := list.items[index := item.(checked := !item.checked)]))
  }

  /** Toggling the same row twice restores the list. */
  lemma ToggleTwiceRestores(list: ShoppingList, index: int)
    requires ToggleItem(list, index).Success?
    ensures ToggleItem(ToggleItem(list, index).value, index) == Success(list)
  {
    var once := ToggleItem(list, index).value;
    assert ToggleItem(once, index).value.items == list.items;
  }

  /** Deletes the row at `index`, keeping the others in order. A missing row is
      reported before the closed state is looked at. */
  function RemoveItem(list: ShoppingList, index: int): (r: Result<ShoppingList, Error>)
    ensures !(0 <= index < |list.items|) ==> r == Failure(NotFound)
    ensures 0 <= index < |list.items| && list.isClosed ==> r == Failure(ListClosed(ClosedForRemoveMessage))
    ensures r.Success? <==> 0 <= index < |list.items| && !list.isClosed
    ensures r.Success? ==>
      && SameRecord(list, r.value)
      && |r.value.items| == |list.items| - 1
      && (forall j :: 0 <= j < index ==> r.value.items[j] == list.items[j])
      && (forall j :: index <= j < |r.value.items| ==> r.value.items[j] == list.items[j + 1])
  {
    if !(0 <= index < |list.items|) then Failure(NotFound)
    else if list.isClosed then Failure(ListClosed(ClosedForRemoveMessage))
    else Success(list.(items := list.items[..index] + list.items[index + 1..]))
  }

  /** Closing is always carried out, whatever the list's state. */
  function CloseList(list: ShoppingList, now: Timestamp): (r: Result<ShoppingList, Error>)
    ensures r.Success?
    ensures r.value.isClosed && r.value.closedAt == Some(now)
    ensures r.value.items == list.items && r.value.peopleCount == list.peopleCount
    ensures r.value.(isClosed := list.isClosed, closedAt := list.closedAt) == list
  {
    Success(Close(list, now))
  }

  // ---------------------------------------------------------------------------
  // The lifecycle as a whole
  // ---------------------------------------------------------------------------

  /** A request against one list. */
  datatype Request =
    | AddRecipesRequest(rows: seq<RecipeRow>)
    | AddManualRequest(name: string, unit: string, quantity: Hundredths)
    | UpdatePeopleRequest(count: int)
    | ToggleRequest(index: int)
    | RemoveRequest(index: int)
    | CloseRequest(now: Timestamp)

  function Perform(list: ShoppingList, request: Request): Result<ShoppingList, Error> {
    match request
    case AddRecipesRequest(rows) => AddRecipes(list, rows)
    case AddManualRequest(name, unit, quantity) => AddManualItem(list, name, unit, quantity)
    case UpdatePeopleRequest(count) => UpdatePeople(list, count)
    case ToggleRequest(index) => ToggleItem(list, index)
    case RemoveRequest(index) => RemoveItem(list, index)
    case CloseRequest(now) => CloseList(list, now)
  }

  /** The list stored after a request: the new list, or the old one if refused. */
  function Apply(list: ShoppingList, request: Request): ShoppingList {
    match Perform(list, request)
    case Success(after) => after
    case Failure(_) => list
  }

  function Run(list: ShoppingList, requests: seq<Request>): ShoppingList
    decreases |requests|
  {
    if |requests| == 0 then list else Run(Apply(list, requests[0]), requests[1..])
  }

  /** On a closed list every request but closing is refused, so its people count
      and rows stay as they are; closing again keeps it closed. */
  lemma ClosedListIsFrozen(list: ShoppingList, request: Request)
    requires list.isClosed
    ensures !request.CloseRequest? ==> Perform(list, request).Failure? && Apply(list, request) == list
    ensures Apply(list, request).isClosed
    ensures Apply(list, request).items == list.items && Apply(list, request).peopleCount == list.peopleCount
  {
  }

  /** Closed is absorbing: no sequence of requests reopens a list or changes its
      people count or rows. */
  lemma {:induction false} ClosedStaysClosed(list: ShoppingList, requests: seq<Request>)
    requires list.isClosed
    ensures Run(list, requests).isClosed
    ensures Run(list, requests).items == list.items && Run(list, requests).peopleCount == list.peopleCount
    decreases |requests|
  {
    if |requests| > 0 {
      ClosedListIsFrozen(list, requests[0]);
      ClosedStaysClosed(Apply(list, requests[0]), requests[1..]);
    }
  }

  /** Removing a row keeps the list invariant. */
  lemma RemoveKeepsValid(list: ShoppingList, index: int)
    requires Valid(list)
    requires RemoveItem(list, index).Success?
    ensures Valid(RemoveItem(list, index).value)
  {
    var after := RemoveItem(list, index).value;
    forall i, j | 0 <= i < j < |after.items| && after.items[i].perPerson.Some? && after.items[j].perPerson.Some?
      ensures after.items[i].name != after.items[j].name || after.items[i].unit != after.items[j].unit
    {
      var i' := if i < index then i else i + 1;
      var j' := if j < index then j else j + 1;
      assert after.items[i] == list.items[i'] && after.items[j] == list.items[j'];
    }
    forall k | 0 <= k < |after.items|
      ensures QuantityIsDerived(after.items[k], EffectivePeople(after.peopleCount))
    {
      var k' := if k < index then k else k + 1;
      assert after.items[k] == list.items[k'];
    }
  }

  /** Appending a manual row keeps the list invariant. */
  lemma AddManualKeepsValid(list: ShoppingList, name: string, unit: string, quantity: Hundredths)
    requires Valid(list)
    requires AddManualItem(list, name, unit, quantity).Success?
    ensures Valid(AddManualItem(list, name, unit, quantity).value)
  {
    var after := AddManualItem(list, name, unit, quantity).value;
    assert forall k :: 0 <= k < |list.items| ==> after.items[k] == list.items[k];
  }

  /** Every request keeps the list invariant. */
  lemma ApplyKeepsValid(list: ShoppingList, request: Request)
    requires Valid(list)
    ensures Valid(Apply(list, request))
  {
    match request
    case AddRecipesRequest(rows) =>
    case AddManualRequest(name, unit, quantity) =>
      if AddManualItem(list, name, unit, quantity).Success? {
        AddManualKeepsValid(list, name, unit, quantity);
      }
    case UpdatePeopleRequest(count) =>
    case ToggleRequest(index) =>
      if ToggleItem(list, index).Success? {
        var after := ToggleItem(list, index).value;
        assert forall k :: 0 <= k < |after.items| ==>
          after.items[k].(checked := list.items[k].checked) == list.items[k];
      }
    case RemoveRequest(index) =>
      if RemoveItem(list, index).Success? {
        RemoveKeepsValid(list, index);
      }
    case CloseRequest(now) =>
  }

  /** A new list is valid, and every sequence of requests keeps it so. */
  lemma {:induction false} RunKeepsValid(list: ShoppingList, requests: seq<Request>)
    requires Valid(list)
    ensures Valid(Run(list, requests))
    decreases |requests|
  {
    if |requests| > 0 {
      ApplyKeepsValid(list, requests[0]);
      RunKeepsValid(Apply(list, requests[0]), requests[1..]);
    }
  }

  lemma NewListIsValid(name: string, peopleCount: nat)
    ensures Valid(NewList(name, peopleCount))
  {
  }
}

=== FILE: wrappers.dfy ===
/** Failure-carrying datatypes shared by the whole model. */
module Wrappers {

  /** A value that may be absent: the model's stand-in for a nullable column. */
  datatype Option<+T> = None | Some(value: T)

  /** The outcome of an operation that either produces a value or is rejected. */
  datatype Result<+R, +E> = Success(value: R) | Failure(error: E)
}
